=== FILE: README.md ===
# SalesManagement in Dafny

This project models the business core of SalesManagement.API, a C# sales and product catalogue service, and proves its rules in Dafny.

- **Sale aggregate.** A `Sale` owns an ordered list of `SaleItem`s. `TotalAmount` is always the sum of the item totals. The status moves from `Created` to `Canceled`, and every successful operation records a domain event.
- **Line items.** A `SaleItem` accepts 1..20 units at a positive unit price. Its discount is tiered: 10% from 4 units, 20% from 10 units.
- **Entity base.** `EntityBase` supplies the id, the creation and update instants, and the list of pending domain events.
- **Products.** A `Product` has a positive price and an active flag.
- **List queries.** `GetAllSalesQueryHandler` and `GetAllProductsQueryHandler` filter, sort, count and page an in-memory sequence. `PaginatedResult` computes the page count by ceiling division.
- **Validators.** The three FluentValidation validators are modelled as predicates over commands. Each `Validate` returns the list of failing rules.

Entities whose fields the C# code updates in place are Dafny classes, and their methods carry `modifies` clauses:

- `EntityBase`, `SaleItem`, `Sale` and `Product` are classes.
- The C# base class `EntityBase` becomes a `const entity: EntityBase` field of each entity.
- A constructor that throws becomes a static `Create` method returning a `Result`.
- A method that throws returns an `Outcome`. The error cases are spelled out in its contract.
- `Sale` keeps a ghost `Lines` sequence: the item objects seen as values. Its invariant `Valid()` ties `TotalAmount` to `Total(Lines)`.

The events, the queries and the validators are pure, so they are datatypes and functions. The four event classes of SaleEvents.cs are the four constructors of `SaleEvents.DomainEvent`; each carries exactly the values its C# constructor takes, plus the instant as `timestamp`.

Modelling choices:

- `decimal` is `real`, which is exact.
- `DateTime.UtcNow` and `Guid.NewGuid()` become inputs (`now`, `id`, `itemId`).
- `int` arithmetic is unbounded except where its wrap-around is the point; see Findings.

Files: `wrappers.dfy`, `primitives.dfy`, `text.dfy`, `sale_events.dfy`, `domain_errors.dfy`, `entity_base.dfy`, `sale_item.dfy`, `sale.dfy`, `sale_scenarios.dfy`, `product.dfy`, `linq.dfy`, `paginated_result.dfy`, `sales_query.dfy`, `products_query.dfy`, `validation_rules.dfy`, `create_sale_validator.dfy`, `update_sale_validator.dfy`, `create_product_validator.dfy`.

## Model

| member | source | states |
|---|---|---|
| EntityBases.EntityBase.constructor | SalesManagement.Domain/Entites/EntityBase.cs:16-21 | a new entity has the given id and creation instant, no update instant and an empty event list |
| EntityBases.EntityBase.AddDomainEvent | SalesManagement.Domain/Entites/EntityBase.cs:23-27 | the event is appended at the end, earlier events are kept in order, UpdatedAt is untouched |
| EntityBases.EntityBase.RemoveDomainEvent | SalesManagement.Domain/Entites/EntityBase.cs:29-32 | the event list becomes `RemoveFirst` of the old list; nothing else changes |
| EntityBases.RemoveFirst | SalesManagement.Domain/Entites/EntityBase.cs:29-32 | List.Remove: an absent event leaves the list unchanged; a present one shortens it by exactly one |
| EntityBases.RemoveFirstAt | SalesManagement.Domain/Entites/EntityBase.cs:29-32 | only the first occurrence is removed; the events before and after it stay in order |
| EntityBases.RemoveFirstMultiset | SalesManagement.Domain/Entites/EntityBase.cs:29-32 | exactly one copy of the event is taken away and nothing else |
| EntityBases.EntityBase.ClearDomainEvents | SalesManagement.Domain/Entites/EntityBase.cs:34-37 | the event list is empty afterwards; UpdatedAt is untouched |
| EntityBases.EntityBase.UpdatedAtNow | SalesManagement.Domain/Entites/EntityBase.cs:39-42 | UpdatedAt becomes the current instant; the events are untouched (Id and CreatedAt are constants) |
| SaleItems.DiscountTiers | SalesManagement.Domain/Entites/SaleItem.cs:65-84 | no discount for 1..3 units, a tenth of the subtotal for 4..9, a fifth for 10..20 |
| SaleItems.DiscountRate | SalesManagement.Domain/Entites/SaleItem.cs:67-81 | the discount percentage is 0, 10% or 20%, and 0 exactly below 4 items |
| SaleItems.DiscountRateMonotone | SalesManagement.Domain/Entites/SaleItem.cs:67-81 | within 1..20 items, more items never earn a smaller percentage |
| SaleItems.Discount | SalesManagement.Domain/Entites/SaleItem.cs:65-84 | CalculateDiscount: for a positive quantity and price the discount is between 0 and a fifth of the subtotal; below 4 items it is 0 |
| SaleItems.LineTotal | SalesManagement.Domain/Entites/SaleItem.cs:15 | the line total of a valid line is between 80% and 100% of the subtotal, hence positive; it equals the subtotal exactly when there are at most 3 units |
| SaleItems.ValidLineTotal | SalesManagement.Domain/Entites/SaleItem.cs:15 | a valid line's TotalPrice is its LineTotal and is positive |
| SaleItems.QuantityError | SalesManagement.Domain/Entites/SaleItem.cs:49-56 | no error exactly for 1..20; above 20 gives the limit error, zero or less the not-positive error |
| SaleItems.CreationError | SalesManagement.Domain/Entites/SaleItem.cs:27-34 | the constructor's checks in order: the quantity error first, then a non-positive unit price; no error exactly for a valid quantity and price |
| SaleItems.ItemLine.WithQuantity | SalesManagement.Domain/Entites/SaleItem.cs:55-56 | the line after a successful UpdateQuantity keeps its id, sale, product and unit price, takes the new quantity, and stays valid for a quantity of 1..20 |
| SaleItems.SaleItem.TotalPrice | SalesManagement.Domain/Entites/SaleItem.cs:15 | UnitPrice * Quantity - Discount of a valid item lies between 80% and 100% of the subtotal and is positive; it agrees with the total of the item's value view |
| SaleItems.SaleItem.Init | SalesManagement.Domain/Entites/SaleItem.cs:23-43 | the fields hold the given values, with the discount for the quantity; no events and no update instant |
| SaleItems.SaleItem.Create | SalesManagement.Domain/Entites/SaleItem.cs:23-43 | fails exactly when `CreationError` reports, with that error; otherwise a fresh valid item holding the given fields and the tiered discount, created at `now`, with no UpdatedAt and no events |
| SaleItems.SaleItem.UpdateQuantity | SalesManagement.Domain/Entites/SaleItem.cs:45-58 | a bad quantity fails before any assignment and changes nothing; success changes only quantity, discount and UpdatedAt; validity is preserved; events are untouched |
| SaleItems.SaleItem.Cancel | SalesManagement.Domain/Entites/SaleItem.cs:60-63 | appends one ItemCanceled(SaleId, Id, ProductId, Quantity) event and changes no field |
| Sales.TotalAppend | SalesManagement.Domain/Entites/Sale.cs:102-105 | appending a line adds exactly its total to the sum |
| Sales.TotalUpdate | SalesManagement.Domain/Entites/Sale.cs:102-105 | replacing one line changes the sum by exactly that line's difference |
| Sales.TotalRemove | SalesManagement.Domain/Entites/Sale.cs:102-105 | removing one line subtracts exactly its total |
| Sales.TotalPositive | SalesManagement.Domain/Entites/Sale.cs:102-105 | the sum over valid lines is never negative, and positive when there is a line |
| Sales.Total | SalesManagement.Domain/Entites/Sale.cs:104 | the sum of the line totals over the lines as values; its behaviour under append, replace and remove is stated by TotalAppend, TotalUpdate and TotalRemove |
| Sales.SumOfTotals | SalesManagement.Domain/Entites/Sale.cs:104 | `_items.Sum(i => i.TotalPrice)` over the item objects; SumOfTotalsIsTotal ties it to Total |
| Sales.SumOfTotalsIsTotal | SalesManagement.Domain/Entites/Sale.cs:104 | the Sum over the item objects equals the sum over the lines they show |
| Sales.LineIndex | SalesManagement.Domain/Entites/Sale.cs:62 | FirstOrDefault by id: the position of the first line with that id, or none exactly when no line has it |
| Sales.Sale.FindItem | SalesManagement.Domain/Entites/Sale.cs:77 | the loop over the items finds exactly `LineIndex` of the lines |
| Sales.Sale.RecalculateTotalAmount | SalesManagement.Domain/Entites/Sale.cs:102-105 | after it, TotalAmount is the sum of the line totals (the aggregate invariant holds) |
| Sales.Sale.constructor | SalesManagement.Domain/Entites/Sale.cs:30-43 | a new sale is Created and not canceled, with no items and a total of 0; its only event is SaleCreated with the given id, number, customer and branch |
| Sales.Sale.IsCanceled | SalesManagement.Domain/Entites/Sale.cs:20 | the sale is canceled exactly when its status is Canceled; Cancel makes it hold and fails when it already holds |
| Sales.Sale.AppendItem | SalesManagement.Domain/Entites/Sale.cs:52-54 | List.Add then recalculation: the item is appended at the end and the total grows by its line total |
| Sales.Sale.AddItem | SalesManagement.Domain/Entites/Sale.cs:45-58 | more than 20 units, or a failing item check, fails with that error and changes no object of the sale (items and their entities included); the existing items and their entities are never touched; success appends one fresh line with this sale's id, whose fresh entity has the given item id, was created at `now`, has no UpdatedAt and no events, adds its LineTotal to the total and appends one SaleModified event; the status is not consulted |
| Sales.Sale.UpdateItemAt | SalesManagement.Domain/Entites/Sale.cs:67-69 | UpdateQuantity on the item at a position: on failure nothing changes, the item and its entity included; on success only that line gets the new quantity and discount, its UpdatedAt is set, its events are kept, and the total moves by the line's difference |
| Sales.Sale.UpdateItem | SalesManagement.Domain/Entites/Sale.cs:60-73 | an unknown id fails with ItemNotFound; a bad quantity fails with the item's error; either way no object of the sale changes. Success changes only the matching line and sets its UpdatedAt (its events are kept), leaves every other item and its entity untouched, adjusts the total, and appends one SaleModified event |
| Sales.Sale.DropItem | SalesManagement.Domain/Entites/Sale.cs:83-85 | List.Remove then recalculation: the item at the position is removed, the others keep their order, and the total drops by its line total |
| Sales.Sale.RemoveItem | SalesManagement.Domain/Entites/Sale.cs:75-89 | an unknown id fails with ItemNotFound and no object of the sale changes. Success records ItemCanceled on the removed item (its fields and UpdatedAt are kept), removes exactly that item keeping the others in order and untouched, subtracts its total and appends one SaleModified event |
| Sales.Sale.Cancel | SalesManagement.Domain/Entites/Sale.cs:91-100 | a canceled sale fails with SaleAlreadyCanceled and nothing changes; otherwise it becomes Canceled and one SaleCanceled event is appended; items and total are never touched |
| SaleScenarios.TwoItemsTotal | SalesManagement.Application.Tests/CreateProductCommandHandlerTests.cs:64-76 | adding 2 x 50 and 3 x 30 gives a total of 190 and three events |
| SaleScenarios.OverLimitRejected | SalesManagement.Application.Tests/CreateProductCommandHandlerTests.cs:79-89 | adding 21 units fails with the limit error and leaves no item and a zero total |
| SaleScenarios.UpdatedQuantityTotal | SalesManagement.Application.Tests/CreateProductCommandHandlerTests.cs:92-105 | raising 2 x 50 to 3 units gives a total of 150 and leaves the item with quantity 3 |
| SaleScenarios.RemovedItemTotal | SalesManagement.Application.Tests/CreateProductCommandHandlerTests.cs:121-135 | removing the first of 100 + 90 leaves one item and 90 |
| SaleScenarios.CancelTwice | SalesManagement.Application.Tests/CreateProductCommandHandlerTests.cs:165-175 | the first Cancel succeeds and the second fails with SaleAlreadyCanceled |
| Products.PriceError | SalesManagement.Domain/Entites/Product.cs:19-20 | the price check fails exactly for a price of zero or less |
| Products.Product.Init | SalesManagement.Domain/Entites/Product.cs:17-28 | the fields hold the given values and the product is active |
| Products.Product.Create | SalesManagement.Domain/Entites/Product.cs:17-28 | fails exactly for a non-positive price; otherwise a fresh active product with the given fields (no image when none is given); only the price is checked |
| Products.Product.Update | SalesManagement.Domain/Entites/Product.cs:30-41 | a non-positive price fails and nothing changes; success replaces the five descriptive fields, keeps IsActive and sets UpdatedAt |
| Products.Product.Activate | SalesManagement.Domain/Entites/Product.cs:43-47 | IsActive becomes true and no other field changes, so it is idempotent and keeps a valid (positive-price) product valid; UpdatedAt is set |
| Products.Product.Deactivate | SalesManagement.Domain/Entites/Product.cs:49-53 | IsActive becomes false and no other field changes, so it is idempotent and keeps a valid (positive-price) product valid; UpdatedAt is set |
| Primitives.Wrap32 | SalesManagement.Application/DTO/PaginatedResult.cs:19 | unchecked `int` arithmetic: the result is an `int`, congruent to the exact value mod 2^32, and equal to it when it fits |
| Primitives.CsDiv | SalesManagement.Application/DTO/PaginatedResult.cs:19 | C# division truncates toward zero: the remainder left by the quotient has the sign of the dividend and is smaller than the divisor in magnitude; it agrees with floor division on non-negative operands |
| Primitives.CsRem | SalesManagement.Application/DTO/PaginatedResult.cs:19 | the C# remainder has the sign of the dividend and is smaller than the divisor in magnitude |
| Pagination.TotalPagesIsCeiling | SalesManagement.Application/DTO/PaginatedResult.cs:19 | TotalPages is the ceiling of totalItems / pageSize: enough pages for every item, no empty last page, and 0 pages for 0 items |
| Pagination.TotalPagesFitsInt32 | SalesManagement.Application/DTO/PaginatedResult.cs:19 | with exact arithmetic, the page count of `int` inputs is itself an `int` |
| Pagination.NewPaginatedResult | SalesManagement.Application/DTO/PaginatedResult.cs:13-20 | fails exactly for a zero page size (division by zero); otherwise Data, TotalItems, CurrentPage and PageSize are stored as passed and TotalPages is `TotalPages(totalItems, pageSize)`, which is the ceiling of totalItems / pageSize for a positive page size and a non-negative count (a negative page size, which the query string allows, gives a value that is no ceiling: 5 items at -2 per page give -1 pages, as in C#) |
| Pagination.TotalPages | SalesManagement.Application/DTO/PaginatedResult.cs:19 | `(totalItems + pageSize - 1) / pageSize` with truncating division and exact arithmetic; TotalPagesIsCeiling states what it means |
| Pagination.TotalPagesInt32 | SalesManagement.Application/DTO/PaginatedResult.cs:19 | the page count as the C# `int` arithmetic computes it, with the sum wrapping around; always an `int`. TotalPagesInt32Agrees and TotalPagesInt32Overflows state when it matches TotalPages and where it does not |
| Pagination.TwoItemsOnePage | SalesManagement.Application/DTO/PaginatedResult.cs:13-20 | 2 items with 10 per page give 1 page |
| Pagination.TotalPagesInt32Agrees | SalesManagement.Application/DTO/PaginatedResult.cs:19 | the wrapping computation agrees with the exact one while the sum fits in an `int` |
| Pagination.TotalPagesInt32Overflows | SalesManagement.Application/DTO/PaginatedResult.cs:19 | 2 items with page size 2147483647 give -1 pages as written, where 1 is intended |
| Linq.Where | SalesManagement.Application/Queries/Handlers/Sales/GetAllSalesQueryHandler.cs:30-40 | Where never lengthens the sequence and keeps only elements satisfying the predicate |
| Linq.WhereCount | SalesManagement.Application/Queries/Handlers/Sales/GetAllSalesQueryHandler.cs:30-40 | Where keeps every copy of a satisfying element and none of the others |
| Linq.WhereSubMultiset | SalesManagement.Application/Queries/Handlers/Sales/GetAllSalesQueryHandler.cs:29-40 | filtering never adds elements: the result is a sub-multiset of the input |
| Linq.WhereWhere | SalesManagement.Application/Queries/Handlers/Sales/GetAllSalesQueryHandler.cs:30-40 | chained filters filter by the conjunction |
| Linq.InOrderTotal | SalesManagement.Application/Queries/Handlers/Sales/GetAllSalesQueryHandler.cs:61-75 | any two sort keys are comparable in either direction |
| Linq.InOrderTransitive | SalesManagement.Application/Queries/Handlers/Sales/GetAllSalesQueryHandler.cs:61-75 | the key order is transitive in either direction |
| Linq.Insert | SalesManagement.Application/Queries/Handlers/Sales/GetAllSalesQueryHandler.cs:61-75 | inserting adds exactly one copy of the element and keeps a sorted sequence sorted |
| Linq.OrderBy | SalesManagement.Application/Queries/Handlers/Sales/GetAllSalesQueryHandler.cs:61-75 | OrderBy / OrderByDescending returns a permutation of the input, ordered by the key in the requested direction |
| Linq.IsAscending | SalesManagement.Application/Queries/Handlers/Sales/GetAllSalesQueryHandler.cs:59 | ascending exactly when the direction is null or empty, or is "asc" after ToLower (the same line is GetAllProductsQueryHandler.cs:58); the ApplySorting rows and DefaultQueryFirstPage state how it orders |
| Linq.SkipTakeSlice | SalesManagement.Application/Queries/Handlers/Sales/GetAllSalesQueryHandler.cs:49 | Skip(offset).Take(size) is the slice of at most size elements starting at offset |
| Linq.Skip | SalesManagement.Application/Queries/Handlers/Sales/GetAllSalesQueryHandler.cs:49 | Enumerable.Skip returns a suffix of the input: all of it for a count of zero or less, otherwise the input without its first `count` elements (empty past the end) |
| Linq.Take | SalesManagement.Application/Queries/Handlers/Sales/GetAllSalesQueryHandler.cs:49 | Enumerable.Take returns a prefix of the input: nothing for a count of zero or less, otherwise `count` elements or the whole input if shorter |
| Text.LowerChar | SalesManagement.Application/Queries/Handlers/Sales/GetAllSalesQueryHandler.cs:61 | an upper-case ASCII letter becomes its own lower-case letter (code + 32); other characters are kept |
| Text.ToLower | SalesManagement.Application/Queries/Handlers/Sales/GetAllSalesQueryHandler.cs:59-61 | lower-casing keeps the length and lower-cases each character |
| Text.CodeUnits | SalesManagement.Application/Validators/Sales/CreateSaleCommandValidator.cs:13-15 | a character takes one UTF-16 code unit, or two exactly when it lies outside the Basic Multilingual Plane |
| Text.Utf16Length | SalesManagement.Application/Validators/Sales/CreateSaleCommandValidator.cs:13-15 | string.Length as MaximumLength reads it: the sum of the code units, between the number of characters and twice that |
| Text.Utf16LengthPlanes | SalesManagement.Application/Validators/Sales/CreateSaleCommandValidator.cs:13-15 | a string of Basic Multilingual Plane characters has one code unit per character; one of characters outside it has two per character |
| Text.ToLowerIdempotent | SalesManagement.Application/Queries/Handlers/Products/GetAllProductsQueryHandler.cs:30 | lower-casing twice is lower-casing once |
| Text.TextLeTotal | SalesManagement.Application/Queries/Handlers/Sales/GetAllSalesQueryHandler.cs:67-70 | the string order used for names is total |
| Text.TextLeTransitive | SalesManagement.Application/Queries/Handlers/Sales/GetAllSalesQueryHandler.cs:67-70 | the string order is transitive |
| Text.TextLeAntisymmetric | SalesManagement.Application/Queries/Handlers/Sales/GetAllSalesQueryHandler.cs:67-70 | two strings that each sort no later than the other are equal |
| SalesQuery.SortFieldOf | SalesManagement.Application/Queries/Handlers/Sales/GetAllSalesQueryHandler.cs:61-75 | SortBy picks SaleNumber, CustomerName, BranchName or TotalAmount exactly when it names them in any case; anything else sorts by SaleDate |
| SalesQuery.ApplyFilters | SalesManagement.Application/Queries/Handlers/Sales/GetAllSalesQueryHandler.cs:29-40 | the four optional filters chained with Where, each only when the query sets it; ApplyFiltersCount states what it keeps |
| SalesQuery.Handle | SalesManagement.Application/Queries/Handlers/Sales/GetAllSalesQueryHandler.cs:25-55 | filter, sort, count, take the page and build the PaginatedResult; HandleSpec and HandlePage state what it returns |
| SalesQuery.ApplySorting | SalesManagement.Application/Queries/Handlers/Sales/GetAllSalesQueryHandler.cs:57-76 | a permutation of the sales, ordered by the selected key, ascending exactly when the direction is null, empty or "asc" in any case |
| SalesQuery.ApplyFiltersCount | SalesManagement.Application/Queries/Handlers/Sales/GetAllSalesQueryHandler.cs:29-40 | the filters keep every copy of a sale that passes every filter the query sets, and no other sale |
| SalesQuery.SelectedSpec | SalesManagement.Application/Queries/Handlers/Sales/GetAllSalesQueryHandler.cs:29-46 | the sorted selection holds exactly the matching sales, each as often as in the input, in the requested order |
| SalesQuery.HandleSpec | SalesManagement.Application/Queries/Handlers/Sales/GetAllSalesQueryHandler.cs:25-55 | Handle fails only on a zero page size; TotalItems counts the matching sales before paging; Page and PageSize are echoed; Data is the requested page of the selection |
| SalesQuery.HandlePage | SalesManagement.Application/Queries/Handlers/Sales/GetAllSalesQueryHandler.cs:49 | for Page >= 1, Data is the slice of at most PageSize sales starting at (Page-1)*PageSize, and each of them is a matching sale of the input |
| SalesQuery.Selected | SalesManagement.Application/Queries/Handlers/Sales/GetAllSalesQueryHandler.cs:29-43 | the optional filters, then ApplySorting: the sequence Handle counts and pages; SelectedSpec states what it holds |
| SalesQuery.DefaultQueryFirstPage | SalesManagement.Application/Queries/Sales/GetAllSalesQuery.cs:8-9 | the default query (page 1 of 10) returns the first ten sales of the selection, or all of them when fewer |
| SalesQuery.DefaultQuerySortField | SalesManagement.Application/Queries/Sales/GetAllSalesQuery.cs:10 | the default SortBy "SaleDate" sorts by the sale date |
| SalesQuery.DefaultQueryDescending | SalesManagement.Application/Queries/Sales/GetAllSalesQuery.cs:11 | the default SortDirection "desc" is not ascending, so the newest sale comes first |
| ProductsQuery.SortFieldOf | SalesManagement.Application/Queries/Handlers/Products/GetAllProductsQueryHandler.cs:58-72 | SortBy picks Price, Category or CreatedAt exactly when it names them in any case; anything else sorts by Name |
| ProductsQuery.ApplyFilters | SalesManagement.Application/Queries/Handlers/Products/GetAllProductsQueryHandler.cs:28-39 | the four optional filters chained with Where, the category one only for a non-empty category; ApplyFiltersCount states what it keeps |
| ProductsQuery.Handle | SalesManagement.Application/Queries/Handlers/Products/GetAllProductsQueryHandler.cs:24-54 | filter, sort, count, take the page and build the PaginatedResult; HandleSpec and HandlePage state what it returns |
| ProductsQuery.ApplySorting | SalesManagement.Application/Queries/Handlers/Products/GetAllProductsQueryHandler.cs:56-73 | a permutation of the products, ordered by the selected key in the requested direction |
| ProductsQuery.ApplyFiltersCount | SalesManagement.Application/Queries/Handlers/Products/GetAllProductsQueryHandler.cs:28-39 | the filters keep every copy of a product that passes the set filters, and no other. The filters are: the category ignoring case when non-empty, inclusive MinPrice and MaxPrice, and an equal IsActive |
| ProductsQuery.SelectedSpec | SalesManagement.Application/Queries/Handlers/Products/GetAllProductsQueryHandler.cs:28-45 | the sorted selection holds exactly the matching products, in the requested order |
| ProductsQuery.HandleSpec | SalesManagement.Application/Queries/Handlers/Products/GetAllProductsQueryHandler.cs:24-54 | Handle fails only on a zero page size; TotalItems counts the matching products before paging; Page and PageSize are echoed; Data is the requested page |
| ProductsQuery.HandlePage | SalesManagement.Application/Queries/Handlers/Products/GetAllProductsQueryHandler.cs:48 | for Page >= 1, Data is the slice of at most PageSize products starting at (Page-1)*PageSize, each a matching product of the input |
| ProductsQuery.Selected | SalesManagement.Application/Queries/Handlers/Products/GetAllProductsQueryHandler.cs:28-42 | the optional filters, then ApplySorting: the sequence Handle counts and pages; SelectedSpec states what it holds |
| ProductsQuery.DefaultQueryFirstPage | SalesManagement.Application/Queries/Products/GetAllProductsQuery.cs:8-9 | the default query (page 1 of 10) returns the first ten products of the selection, or all of them when fewer |
| ProductsQuery.DefaultQueryOrder | SalesManagement.Application/Queries/Products/GetAllProductsQuery.cs:10-11 | the default SortBy "Name" and SortDirection "asc" sort by name, ascending |
| Pagination.PageOfIsSlice | SalesManagement.Application/Queries/Handlers/Sales/GetAllSalesQueryHandler.cs:49 | with exact arithmetic, a page at Page >= 1 is the slice starting at (Page-1)*PageSize, at most PageSize long, and empty past the end |
| Pagination.PageOf | SalesManagement.Application/Queries/Handlers/Sales/GetAllSalesQueryHandler.cs:49 | `Skip((Page - 1) * PageSize).Take(PageSize)` with exact arithmetic; PageOfIsSlice and PageInSource state what it returns |
| Pagination.PageOffset | SalesManagement.Application/Queries/Handlers/Sales/GetAllSalesQueryHandler.cs:49 | with exact arithmetic the offset `(Page - 1) * PageSize` is never negative for Page >= 1 and a non-negative PageSize, and is 0 on the first page |
| Pagination.PageOffsetInt32 | SalesManagement.Application/Queries/Handlers/Sales/GetAllSalesQueryHandler.cs:49 | the offset `(Page - 1) * PageSize` in wrapping `int` (the same expression is at GetAllProductsQueryHandler.cs:48); always an `int`, and equal to PageOffset for Page >= 1 while the exact offset fits |
| Pagination.PageOfInt32 | SalesManagement.Application/Queries/Handlers/Sales/GetAllSalesQueryHandler.cs:49 | `Skip((Page - 1) * PageSize).Take(PageSize)` with the wrapping offset (also GetAllProductsQueryHandler.cs:48); never longer than the input, and equal to PageOf for Page >= 1 while the exact offset fits; PageOfInt32WrapsToFirstPage shows where it is not |
| Pagination.PageInSource | SalesManagement.Application/Queries/Handlers/Sales/GetAllSalesQueryHandler.cs:49 | every element of a page comes from the paged sequence |
| Pagination.PageOfInt32WrapsToFirstPage | SalesManagement.Application/Queries/Handlers/Sales/GetAllSalesQueryHandler.cs:49 | as written, page 300000000 of 15 items at 10 per page wraps to a negative offset and returns the first 10 items, where the page is empty |
| ValidationRules.TextFailures | SalesManagement.Application/Validators/Sales/CreateSaleCommandValidator.cs:13-15 | NotEmpty().MaximumLength(max) passes exactly for a non-blank string of at most max UTF-16 code units (`Utf16Length`, as string.Length counts); null fails only NotEmpty |
| ValidationRules.WithinLength | SalesManagement.Application/Validators/Sales/CreateSaleCommandValidator.cs:15 | MaximumLength(max): null passes, otherwise `Utf16Length` at most max; TextFailures and AstralNameTooLong state it through the rule list |
| ValidationRules.AstralNameTooLong | SalesManagement.Application/Validators/Sales/CreateSaleCommandValidator.cs:13-15 | a name of 51 characters outside the Basic Multilingual Plane is 102 code units long and fails MaximumLength(100) alone |
| ValidationRules.GuidFailures | SalesManagement.Application/Validators/Sales/CreateSaleCommandValidator.cs:10-11 | NotEmpty on a Guid fails exactly for Guid.Empty |
| ValidationRules.QuantityFailures | SalesManagement.Application/Validators/Sales/CreateSaleCommandValidator.cs:36-38 | GreaterThan(0).LessThanOrEqualTo(20) passes exactly for 1..20 |
| ValidationRules.PriceFailures | SalesManagement.Application/Validators/Sales/CreateSaleCommandValidator.cs:40-41 | GreaterThan(0) passes exactly for a positive price |
| CreateSaleValidation.ItemFailures | SalesManagement.Application/Validators/Sales/CreateSaleCommandValidator.cs:27-42 | an item has no failure exactly when its ProductId is non-empty, its ProductName is non-blank and at most 100 characters, its quantity is 1..20 and its price is positive |
| CreateSaleValidation.EachItemFailures | SalesManagement.Application/Validators/Sales/CreateSaleCommandValidator.cs:27-42 | RuleForEach: no failure exactly when every item passes |
| CreateSaleValidation.Validate | SalesManagement.Application/Validators/Sales/CreateSaleCommandValidator.cs:8-43 | no failure exactly when the command is accepted. Accepted means: non-empty ids, non-blank names of at most 100 characters, a non-empty item list and every item valid. An empty item list is reported on Items |
| CreateSaleValidation.AcceptedItemsAreCreatable | SalesManagement.Application/Validators/Sales/CreateSaleCommandValidator.cs:36-41 | every item of an accepted command passes SaleItem's constructor checks |
| CreateSaleValidation.ItemRulesMatchSaleItem | SalesManagement.Application/Validators/Sales/CreateSaleCommandValidator.cs:36-41 | the item quantity and price rules accept exactly what SaleItem's constructor accepts |
| UpdateSaleValidation.EachItemFailures | SalesManagement.Application/Validators/Sales/UpdateSaleCommandValidator.cs:16-24 | no failure exactly when every item has a non-empty id and a quantity of 1..20 |
| UpdateSaleValidation.Validate | SalesManagement.Application/Validators/Sales/UpdateSaleCommandValidator.cs:8-25 | no failure exactly when the sale id is non-empty, the item list is non-empty and every item passes; an empty item list is reported on Items |
| UpdateSaleValidation.AcceptedQuantitiesAreInRange | SalesManagement.Application/Validators/Sales/UpdateSaleCommandValidator.cs:21-23 | an accepted command never trips UpdateQuantity's range checks |
| CreateProductValidation.Validate | SalesManagement.Application/Validators/Sales/Produtcs/CreateProductCommandValidator.cs:8-24 | no failure exactly when name (100), description (500) and category (50) are non-blank within their limits and the price is positive |
| CreateProductValidation.AcceptedPriceIsValid | SalesManagement.Application/Validators/Sales/Produtcs/CreateProductCommandValidator.cs:22-23 | an accepted command passes Product's price check |

## Left out

- Persistence, the repositories, AutoMapper, MediatR and the HTTP layer are not part of this model. The query handlers take the repository's sequence as input and return records, not DTOs.
- The clock and identity generation are inputs. `DateTime.UtcNow` is an argument `now`. Each event's own `Timestamp` is that same `now`. A sale's SaleDate and CreatedAt read the clock separately in C#; here they are the same `now`.
- Sales.Sale.AddItem: it requires an item id that no current line has, standing in for `Guid.NewGuid()`.
- String handling is simplified. `ToLower` lower-cases ASCII letters only, and string ordering is ordinal. The culture-sensitive casing and comparison of .NET are not modelled. String lengths, as MaximumLength reads them, are counted in UTF-16 code units like .NET's string.Length.
- A null `SortBy` (a NullReferenceException in ApplySorting) is not modelled: `sortBy` is a non-null string. The same holds for a product with a null Category when a category filter is set.
- EntityBases.EntityBase.RemoveDomainEvent: events are compared by value. The C# event classes compare by reference, so removing an equal but distinct event object is a no-op there.
- The null guards on the event list in AddDomainEvent, RemoveDomainEvent and ClearDomainEvents are not modelled. EntityBase's only constructor always creates the list, and every entity constructor runs it, so the list is never null in the code shown.
- Linq.OrderBy: the contract states a sorted permutation, not stability. The insertion it uses keeps equal keys in input order, but that is not proved.
- Numeric limits are not modelled in general. `decimal` is exact `real`, so the decimal(18,2) column rounding and decimal overflow are absent. `int` overflow is modelled only in the Findings below.
- The validators are modelled as standalone predicates, because nothing registers them in front of the handlers. Error message texts are replaced by rule and property values. The default NotEmpty on strings rejects null, empty and white-space-only text.
- Dispatching the collected events when the unit of work saves is not part of this model.
- A Product test expects an empty name, description or category to throw. The Product constructor checks only the price, so the model follows the code.
- Sale.AddItem, UpdateItem and RemoveItem do not check the status, so a canceled sale still accepts item changes. The model follows the code, not a "no changes after cancel" rule.

## Findings

| source | as written | input that shows it | evidently intended | confidence | as-written member | corrected member |
|---|---|---|---|---|---|---|
| SalesManagement.Application/DTO/PaginatedResult.cs:19 | `(totalItems + pageSize - 1) / pageSize` in `int` overflows when the sum exceeds 2147483647 | totalItems = 2, pageSize = 2147483647 gives TotalPages = -1 | the ceiling of totalItems / pageSize, here 1 | not executed | Pagination.TotalPagesInt32Overflows | Pagination.TotalPagesIsCeiling |
| SalesManagement.Application/Queries/Handlers/Sales/GetAllSalesQueryHandler.cs:49 | `(Page - 1) * PageSize` in `int` wraps for large pages; a negative offset makes Skip skip nothing | Page = 300000000, PageSize = 10, 15 sales: offset -1294967306, the first 10 sales come back | an empty page past the end | not executed | Pagination.PageOfInt32WrapsToFirstPage | Pagination.PageOfIsSlice |
| SalesManagement.Application/Queries/Handlers/Products/GetAllProductsQueryHandler.cs:48 | `(Page - 1) * PageSize` in `int` wraps for large pages; a negative offset makes Skip skip nothing | Page = 300000000, PageSize = 10, 15 products: offset -1294967306, the first 10 products come back | an empty page past the end | not executed | Pagination.PageOfInt32WrapsToFirstPage | Pagination.PageOfIsSlice |

=== FILE: create_product_validator.dfy ===
/** CreateProductCommandValidator: the rules a CreateProductCommand must pass.
    The image URL is not checked. */
module CreateProductValidation {
  import opened Wrappers
  import opened ValidationRules
  import opened Products

  datatype CreateProductCommand = CreateProductCommand(name: Option<string>, description: Option<string>,
                                                       category: Option<string>, price: real,
                                                       imageUrl: Option<string>)

  datatype Property = Name | Description | Category | Price


  predicate Accepts(c: CreateProductCommand) {
    NotEmptyText(c.name) && WithinLength(c.name, 100)
    && NotEmptyText(c.description) && WithinLength(c.description, 500)
    && NotEmptyText(c.category) && WithinLength(c.category, 50)
    && c.price > 0.0
  }

  /** Validate: every failing rule, in declaration order. The command is
      accepted exactly when there is none. */
  function Validate(c: CreateProductCommand): (r: seq<ValidationFailure<Property>>)
    ensures r == [] <==> Accepts(c)
  {
    Report(Name, TextFailures(c.name, 100))
    + Report(Description, TextFailures(c.description, 500))
    + Report(Category, TextFailures(c.category, 50))
    + Report(Price, PriceFailures(c.price))
  }

  /** An accepted command passes the Product constructor's price check. */
  lemma AcceptedPriceIsValid(c: CreateProductCommand)
    requires Validate(c) == []
    ensures PriceError(c.price).None?
  {
  }
}

=== FILE: create_sale_validator.dfy ===
/** CreateSaleCommandValidator: the rules a CreateSaleCommand must pass. */
module CreateSaleValidation {
  import opened Wrappers
  import opened Primitives
  import opened ValidationRules
  import opened SaleItems

  /** CreateSaleCommand and its SaleItemCommand lines; a null string is None. */
  datatype SaleItemCommand = SaleItemCommand(productId: Guid, productName: Option<string>,
                                             quantity: int, unitPrice: real)
  datatype CreateSaleCommand = CreateSaleCommand(customerId: Guid, customerName: Option<string>,
                                                 branchId: Guid, branchName: Option<string>,
                                                 items: seq<SaleItemCommand>)

  /** The property a failure is reported on; item properties carry the item's index. */
  datatype Property =
    | CustomerId | CustomerName | BranchId | BranchName | Items
    | ProductId(index: nat) | ProductName(index: nat) | Quantity(index: nat) | UnitPrice(index: nat)


  /** The child rules of one item. */
  predicate ItemAccepted(item: SaleItemCommand) {
    item.productId != EmptyGuid
    && NotEmptyText(item.productName) && WithinLength(item.productName, 100)
    && 0 < item.quantity <= 20
    && item.unitPrice > 0.0
  }

  /** The whole validator, as one predicate. */
  predicate Accepts(c: CreateSaleCommand) {
    c.customerId != EmptyGuid
    && NotEmptyText(c.customerName) && WithinLength(c.customerName, 100)
    && c.branchId != EmptyGuid
    && NotEmptyText(c.branchName) && WithinLength(c.branchName, 100)
    && |c.items| > 0
    && forall i :: 0 <= i < |c.items| ==> ItemAccepted(c.items[i])
  }

  function ItemFailures(item: SaleItemCommand, index: nat): (r: seq<ValidationFailure<Property>>)
    ensures r == [] <==> ItemAccepted(item)
  {
    Report(ProductId(index), GuidFailures(item.productId))
    + Report(ProductName(index), TextFailures(item.productName, 100))
    + Report(Quantity(index), QuantityFailures(item.quantity))
    + Report(UnitPrice(index), PriceFailures(item.unitPrice))
  }

  /** RuleForEach(Items): the failures of each item, in item order; `first` is
      the index of items[0] in the command. */
  function EachItemFailures(items: seq<SaleItemCommand>, first: nat): (r: seq<ValidationFailure<Property>>)
    ensures r == [] <==> forall i :: 0 <= i < |items| ==> ItemAccepted(items[i])
  {
    if items == [] then []
    else ItemFailures(items[0], first) + EachItemFailures(items[1..], first + 1)
  }

  /** Validate: every failing rule, in declaration order. The command is
      accepted exactly when there is none. */
  function Validate(c: CreateSaleCommand): (r: seq<ValidationFailure<Property>>)
    ensures r == [] <==> Accepts(c)
    ensures c.items == [] ==> ValidationFailure(Items, NotEmpty) in r
  {
    Report(CustomerId, GuidFailures(c.customerId))
    + Report(CustomerName, TextFailures(c.customerName, 100))
    + Report(BranchId, GuidFailures(c.branchId))
    + Report(BranchName, TextFailures(c.branchName, 100))
    + Report(Items, if c.items == [] then [NotEmpty] else [])
    + EachItemFailures(c.items, 0)
  }

  /** An accepted command's items all pass SaleItem's constructor checks, so
      adding them to a sale cannot fail. */
  lemma AcceptedItemsAreCreatable(c: CreateSaleCommand)
    requires Validate(c) == []
    ensures forall i :: 0 <= i < |c.items| ==> CreationError(c.items[i].quantity, c.items[i].unitPrice).None?
  {
  }

  /** The item rules on quantity and price coincide with SaleItem's checks. */
  lemma ItemRulesMatchSaleItem(item: SaleItemCommand)
    ensures (0 < item.quantity <= 20 && item.unitPrice > 0.0)
        <==> CreationError(item.quantity, item.unitPrice).None?
  {
  }
}

=== FILE: domain_errors.dfy ===
/** The domain-rule violations for which the entities throw DomainException,
    one constructor per rule broken. The SaleItem constructor and UpdateQuantity
    word the non-positive quantity message slightly differently; both are
    QuantityNotPositive. */
module DomainErrors {

  datatype DomainError =
    | QuantityAboveLimit    // more than 20 identical items
    | QuantityNotPositive   // quantity must be greater than zero
    | UnitPriceNotPositive  // unit price must be greater than zero
    | ItemNotFound          // no item with that id in this sale
    | SaleAlreadyCanceled   // the sale was already canceled
    | PriceNotPositive      // product price must be greater than zero
}

=== FILE: entity_base.dfy ===
/** The state every entity shares: identity, creation and update instants and
    the list of domain events raised but not yet dispatched. */
module EntityBases {
  import opened Wrappers
  import opened Primitives
  import opened SaleEvents

  /** List.Remove: the list without the first element equal to `e`, or the
      list itself when `e` does not occur. */
  function RemoveFirst(events: seq<DomainEvent>, e: DomainEvent): (r: seq<DomainEvent>)
    ensures e !in events ==> r == events
    ensures e in events ==> |r| == |events| - 1
  {
    if events == [] then []
    else if events[0] == e then events[1..]
    else [events[0]] + RemoveFirst(events[1..], e)
  }

  /** RemoveFirst deletes exactly the first occurrence, at `k`: everything
      before it and everything after it is kept, in order. */
  lemma {:induction false} RemoveFirstAt(events: seq<DomainEvent>, e: DomainEvent, k: nat)
    requires k < |events| && events[k] == e && e !in events[..k]
    ensures RemoveFirst(events, e) == events[..k] + events[k + 1..]
  {
    if k > 0 {
      assert events[0] == events[..k][0];
      assert events[1..][..k - 1] == events[1..k];
      RemoveFirstAt(events[1..], e, k - 1);
      assert events[..k] == [events[0]] + events[1..][..k - 1];
    }
  }

  /** RemoveFirst takes away one copy of `e` and nothing else. */
  lemma {:induction false} RemoveFirstMultiset(events: seq<DomainEvent>, e: DomainEvent)
    ensures multiset(RemoveFirst(events, e)) == multiset(events) - multiset{e}
  {
    if events != [] {
      RemoveFirstMultiset(events[1..], e);
      assert events == [events[0]] + events[1..];
    }
  }

  class EntityBase {
    const id: Guid
    const createdAt: Timestamp
    var updatedAt: Option<Timestamp>
    var domainEvents: seq<DomainEvent>

    /** A new entity: the fresh id and the current instant are inputs. */
    constructor (id: Guid, now: Timestamp)
      ensures this.id == id && createdAt == now
      ensures updatedAt == None && domainEvents == []
    {
      this.id := id;
      createdAt := now;
      updatedAt := None;
      domainEvents := [];
    }

    method AddDomainEvent(e: DomainEvent)
      modifies this
      ensures domainEvents == old(domainEvents) + [e]
      ensures updatedAt == old(updatedAt)
    {
      domainEvents := domainEvents + [e];
    }

    method RemoveDomainEvent(e: DomainEvent)
      modifies this
      ensures domainEvents == RemoveFirst(old(domainEvents), e)
      ensures updatedAt == old(updatedAt)
    {
      domainEvents := RemoveFirst(domainEvents, e);
    }

    method ClearDomainEvents()
      modifies this
      ensures domainEvents == []
      ensures updatedAt == old(updatedAt)
    {
      domainEvents := [];
    }

    method UpdatedAtNow(now: Timestamp)
      modifies this
      ensures updatedAt == Some(now)
      ensures domainEvents == old(domainEvents)
    {
      updatedAt := Some(now);
    }
  }
}

=== FILE: linq.dfy ===
/** The LINQ operators the list queries chain over an in-memory sequence:
    Where, OrderBy / OrderByDescending (a stable sort by a key), Skip and Take. */
module Linq {
  import opened Wrappers
  import opened Text

  /** Enumerable.Where: the elements that satisfy `p`, in their order. */
  function Where<T>(s: seq<T>, p: T -> bool): (r: seq<T>)
    ensures |r| <= |s|
    ensures forall i :: 0 <= i < |r| ==> p(r[i])
  {
    if s == [] then []
    else if p(s[0]) then [s[0]] + Where(s[1..], p)
    else Where(s[1..], p)
  }

  /** Where keeps every copy of an element that satisfies `p` and no copy of
      one that does not: the result is a sub-multiset of the input. */
  lemma {:induction false} WhereCount<T>(s: seq<T>, p: T -> bool, x: T)
    ensures multiset(Where(s, p))[x] == if p(x) then multiset(s)[x] else 0
  {
    if s != [] {
      WhereCount(s[1..], p, x);
      assert s == [s[0]] + s[1..];
    }
  }

  lemma WhereSubMultiset<T>(s: seq<T>, p: T -> bool)
    ensures multiset(Where(s, p)) <= multiset(s)
  {
    forall x | x in multiset(Where(s, p))
      ensures multiset(Where(s, p))[x] <= multiset(s)[x]
    {
      WhereCount(s, p, x);
    }
  }

  /** Two successive Where calls filter by the conjunction. */
  lemma {:induction false} WhereWhere<T>(s: seq<T>, p: T -> bool, q: T -> bool)
    ensures Where(Where(s, p), q) == Where(s, x => p(x) && q(x))
  {
    if s != [] {
      WhereWhere(s[1..], p, q);
    }
  }

  /** A key OrderBy compares: numbers and instants by value, strings ordinally. */
  datatype SortKey = Number(n: real) | Text(t: string)

  predicate KeyLe(a: SortKey, b: SortKey) {
    match (a, b)
    case (Number(x), Number(y)) => x <= y
    case (Text(x), Text(y)) => TextLe(x, y)
    case (Number(_), Text(_)) => true
    case (Text(_), Number(_)) => false
  }

  /** `a` may come before `b` in the requested direction. */
  predicate InOrder(a: SortKey, b: SortKey, ascending: bool) {
    if ascending then KeyLe(a, b) else KeyLe(b, a)
  }

  lemma InOrderTotal(a: SortKey, b: SortKey, ascending: bool)
    ensures InOrder(a, b, ascending) || InOrder(b, a, ascending)
  {
    if a.Text? && b.Text? {
      TextLeTotal(a.t, b.t);
    }
  }

  lemma InOrderTransitive(a: SortKey, b: SortKey, c: SortKey, ascending: bool)
    requires InOrder(a, b, ascending) && InOrder(b, c, ascending)
    ensures InOrder(a, c, ascending)
  {
    if a.Text? && b.Text? && c.Text? {
      if ascending {
        TextLeTransitive(a.t, b.t, c.t);
      } else {
        TextLeTransitive(c.t, b.t, a.t);
      }
    }
  }

  /** The direction rule of ApplySorting: ascending exactly when the direction
      is null, empty or "asc" in any case. */
  predicate IsAscending(sortDirection: Option<string>) {
    IsNullOrEmpty(sortDirection) || ToLower(sortDirection.value) == "asc"
  }

  ghost predicate Sorted<T>(s: seq<T>, key: T -> SortKey, ascending: bool) {
    forall i, j :: 0 <= i < j < |s| ==> InOrder(key(s[i]), key(s[j]), ascending)
  }

  /** Puts `x` before the first element it may precede, so it stays ahead of
      every element with an equal key. */
  function Insert<T>(x: T, s: seq<T>, key: T -> SortKey, ascending: bool): (r: seq<T>)
    ensures multiset(r) == multiset(s) + multiset{x}
    ensures Sorted(s, key, ascending) ==> Sorted(r, key, ascending)
  {
    if s == [] then [x]
    else if InOrder(key(x), key(s[0]), ascending) then
      InsertFront(x, s, key, ascending);
      [x] + s
    else
      var rest := Insert(x, s[1..], key, ascending);
      assert s == [s[0]] + s[1..];
      InsertBehind(x, s, rest, key, ascending);
      [s[0]] + rest
  }

  lemma InsertFront<T>(x: T, s: seq<T>, key: T -> SortKey, ascending: bool)
    requires s != [] && InOrder(key(x), key(s[0]), ascending)
    ensures Sorted(s, key, ascending) ==> Sorted([x] + s, key, ascending)
  {
    if Sorted(s, key, ascending) {
      forall j | 1 <= j < |s| + 1
        ensures InOrder(key(x), key(([x] + s)[j]), ascending)
      {
        if j > 1 {
          InOrderTransitive(key(x), key(s[0]), key(s[j - 1]), ascending);
        }
      }
    }
  }

  lemma InsertBehind<T>(x: T, s: seq<T>, rest: seq<T>, key: T -> SortKey, ascending: bool)
    requires s != [] && !InOrder(key(x), key(s[0]), ascending)
    requires multiset(rest) == multiset(s[1..]) + multiset{x}
    requires Sorted(s[1..], key, ascending) ==> Sorted(rest, key, ascending)
    ensures Sorted(s, key, ascending) ==> Sorted([s[0]] + rest, key, ascending)
  {
    if Sorted(s, key, ascending) {
      InOrderTotal(key(x), key(s[0]), ascending);
      forall j | 0 <= j < |rest|
        ensures InOrder(key(s[0]), key(rest[j]), ascending)
      {
        assert rest[j] in multiset(rest);
        assert rest[j] in multiset(s[1..]) + multiset{x};
        if rest[j] != x {
          assert rest[j] in s[1..];
        }
      }
    }
  }

  /** OrderBy (ascending) or OrderByDescending: a permutation of the input,
      ordered by the key in the requested direction; equal keys keep their
      input order. */
  function OrderBy<T>(s: seq<T>, key: T -> SortKey, ascending: bool): (r: seq<T>)
    ensures multiset(r) == multiset(s)
    ensures Sorted(r, key, ascending)
  {
    if s == [] then []
    else
      assert s == [s[0]] + s[1..];
      Insert(s[0], OrderBy(s[1..], key, ascending), key, ascending)
  }

  /** Enumerable.Skip: a suffix of the input, without its first `count`
      elements; a count of zero or less skips nothing. */
  function Skip<T>(s: seq<T>, count: int): (r: seq<T>)
    ensures |r| <= |s| && forall i :: 0 <= i < |r| ==> r[i] == s[|s| - |r| + i]
    ensures count <= 0 ==> r == s
    ensures count > 0 ==> |r| == if count >= |s| then 0 else |s| - count
  {
    if count <= 0 then s else if count >= |s| then [] else s[count..]
  }

  /** Enumerable.Take: a prefix of the input, at most `count` long; a count of
      zero or less takes nothing. */
  function Take<T>(s: seq<T>, count: int): (r: seq<T>)
    ensures |r| <= |s| && forall i :: 0 <= i < |r| ==> r[i] == s[i]
    ensures count <= 0 ==> r == []
    ensures count > 0 ==> |r| == if count >= |s| then |s| else count
  {
    if count <= 0 then [] else if count >= |s| then s else s[..count]
  }

  function Min(a: int, b: int): int {
    if a <= b then a else b
  }

  /** Skip(offset).Take(size) with a non-negative offset and size is the slice
      of at most `size` elements starting at `offset`. */
  lemma SkipTakeSlice<T>(s: seq<T>, offset: int, size: int)
    requires offset >= 0 && size >= 0
    ensures Take(Skip(s, offset), size) == s[Min(offset, |s|)..Min(offset + size, |s|)]
    ensures |Take(Skip(s, offset), size)| <= size
  {
  }
}

=== FILE: paginated_result.dfy ===
/** PaginatedResult and the paging arithmetic of the list queries. */
module Pagination {
  import opened Wrappers
  import opened Primitives
  import opened Linq

  datatype PaginatedResult<T> = PaginatedResult(data: seq<T>, totalItems: int, currentPage: int,
                                                totalPages: int, pageSize: int)

  /** The DivideByZeroException of TotalPages when the page size is zero. */
  datatype PageError = DivideByZero

  /** (totalItems + pageSize - 1) / pageSize, with C#'s truncating division and
      without wrap-around. */
  function TotalPages(totalItems: int, pageSize: int): int
    requires pageSize != 0
  {
    CsDiv(totalItems + pageSize - 1, pageSize)
  }

  /** For a positive page size and a count, TotalPages is the ceiling of
      totalItems / pageSize: enough pages for every item, and no empty last page. */
  lemma TotalPagesIsCeiling(totalItems: int, pageSize: int)
    requires pageSize > 0 && totalItems >= 0
    ensures TotalPages(totalItems, pageSize) >= 0
    ensures TotalPages(totalItems, pageSize) * pageSize >= totalItems
    ensures totalItems > 0 ==> (TotalPages(totalItems, pageSize) - 1) * pageSize < totalItems
    ensures totalItems == 0 ==> TotalPages(totalItems, pageSize) == 0
  {
    var n := totalItems + pageSize - 1;
    var q := n / pageSize;
    var r := n % pageSize;
    assert n == q * pageSize + r && 0 <= r < pageSize;
    assert q * pageSize >= totalItems by {
      assert q * pageSize == totalItems + pageSize - 1 - r;
    }
    if totalItems == 0 {
      assert q == 0;
    }
  }

  /** For C# `int` inputs TotalPages is itself an `int`. */
  lemma TotalPagesFitsInt32(totalItems: int, pageSize: int)
    requires 0 <= totalItems <= Int32Max && 0 < pageSize <= Int32Max
    ensures IsInt32(TotalPages(totalItems, pageSize))
  {
    TotalPagesIsCeiling(totalItems, pageSize);
    var t := TotalPages(totalItems, pageSize);
    if t > totalItems {
      assert t - 1 >= totalItems > 0;
      MulMonotone(t - 1, pageSize);
      assert false;
    }
  }

  lemma MulMonotone(a: int, b: int)
    requires a >= 0 && b >= 1
    ensures a * b >= a
  {
  }

  /** The PaginatedResult constructor: the data and the paging figures are
      stored as passed; a zero page size makes TotalPages throw. */
  function NewPaginatedResult<T>(data: seq<T>, totalItems: int, currentPage: int, pageSize: int)
    : (r: Result<PaginatedResult<T>, PageError>)
    ensures r.Failure? <==> pageSize == 0
    ensures r.Success? ==>
      r.value.data == data && r.value.totalItems == totalItems
      && r.value.currentPage == currentPage && r.value.pageSize == pageSize
      && r.value.totalPages == TotalPages(totalItems, pageSize)
    ensures r.Success? && pageSize > 0 && totalItems >= 0 ==>
      r.value.totalPages * pageSize >= totalItems
      && (totalItems > 0 ==> (r.value.totalPages - 1) * pageSize < totalItems)
  {
    if pageSize == 0 then Failure(DivideByZero)
    else
      var result := PaginatedResult(data, totalItems, currentPage, TotalPages(totalItems, pageSize), pageSize);
      if pageSize > 0 && totalItems >= 0 then
        TotalPagesIsCeiling(totalItems, pageSize);
        Success(result)
      else
        Success(result)
  }

  /** Two items, ten per page: one page, and the figures are echoed. */
  lemma TwoItemsOnePage<T>(a: T, b: T)
    ensures NewPaginatedResult([a, b], 2, 1, 10) == Success(PaginatedResult([a, b], 2, 1, 1, 10))
  {
  }

  /** TotalPages as the C# code computes it: the sum wraps around in `int`. */
  function TotalPagesInt32(totalItems: int, pageSize: int): (n: int)
    requires IsInt32(totalItems) && IsInt32(pageSize) && pageSize > 0
    ensures IsInt32(n)
  {
    CsDiv(Wrap32(Wrap32(totalItems + pageSize) - 1), pageSize)
  }

  /** The two agree whenever totalItems + pageSize - 1 fits in an `int`... */
  lemma TotalPagesInt32Agrees(totalItems: int, pageSize: int)
    requires IsInt32(totalItems) && IsInt32(pageSize) && pageSize > 0
    requires totalItems >= 0 && totalItems + pageSize - 1 <= Int32Max
    ensures TotalPagesInt32(totalItems, pageSize) == TotalPages(totalItems, pageSize)
  {
  }

  /** ...but two items with the largest page size give -1 pages instead of 1. */
  lemma TotalPagesInt32Overflows()
    ensures TotalPagesInt32(2, Int32Max) == -1
    ensures TotalPages(2, Int32Max) == 1
  {
    assert Wrap32(2 + Int32Max) == Int32Min + 1;
    assert Wrap32(Int32Min + 1 - 1) == Int32Min;
  }

  /** The index of the first element of a page: (Page - 1) * PageSize. */
  function PageOffset(page: int, pageSize: int): (off: int)
    ensures page >= 1 && pageSize >= 0 ==> off >= 0
    ensures page == 1 ==> off == 0
  {
    (page - 1) * pageSize
  }

  /** Skip((Page - 1) * PageSize).Take(PageSize). */
  function PageOf<T>(s: seq<T>, page: int, pageSize: int): seq<T> {
    Take(Skip(s, PageOffset(page, pageSize)), pageSize)
  }

  /** For Page >= 1 the page is the slice of at most PageSize elements that
      starts at (Page - 1) * PageSize; past the end it is empty. */
  lemma PageOfIsSlice<T>(s: seq<T>, page: int, pageSize: int)
    requires page >= 1 && pageSize >= 0
    ensures var off := PageOffset(page, pageSize);
      off >= 0
      && PageOf(s, page, pageSize) == s[Min(off, |s|)..Min(off + pageSize, |s|)]
      && |PageOf(s, page, pageSize)| <= pageSize
      && (off >= |s| ==> PageOf(s, page, pageSize) == [])
  {
    var off := PageOffset(page, pageSize);
    assert off >= 0 by {
      assert page - 1 >= 0;
    }
    SkipTakeSlice(s, off, pageSize);
  }

  /** The offset as the C# code computes it: the product wraps around in `int`. */
  function PageOffsetInt32(page: int, pageSize: int): (off: int)
    requires IsInt32(page) && IsInt32(pageSize)
    ensures IsInt32(off)
    ensures page >= 1 && IsInt32(PageOffset(page, pageSize)) ==> off == PageOffset(page, pageSize)
  {
    Wrap32(Wrap32(page - 1) * pageSize)
  }

  /** The page as the C# code takes it: the same as PageOf while the exact
      offset fits in an `int`. */
  function PageOfInt32<T>(s: seq<T>, page: int, pageSize: int): (r: seq<T>)
    requires IsInt32(page) && IsInt32(pageSize)
    ensures |r| <= |s|
    ensures page >= 1 && IsInt32(PageOffset(page, pageSize)) ==> r == PageOf(s, page, pageSize)
  {
    Take(Skip(s, PageOffsetInt32(page, pageSize)), pageSize)
  }

  /** Page 300000000 of fifteen items, ten per page: the wrapped offset is
      negative, so Skip skips nothing and the first ten items come back,
      where the page is empty. */
  lemma PageOfInt32WrapsToFirstPage(s: seq<int>)
    requires |s| == 15
    ensures PageOffsetInt32(300000000, 10) == -1294967306
    ensures PageOfInt32(s, 300000000, 10) == s[..10]
    ensures PageOf(s, 300000000, 10) == []
  {
  }

  /** Every element of a page comes from the paged sequence. */
  lemma PageInSource<T>(s: seq<T>, page: int, pageSize: int, i: nat)
    requires i < |PageOf(s, page, pageSize)|
    ensures PageOf(s, page, pageSize)[i] in s
  {
    var skipped := Skip(s, PageOffset(page, pageSize));
    assert PageOf(s, page, pageSize)[i] == skipped[i];
    assert skipped[i] in s;
  }
}

=== FILE: primitives.dfy ===
/** Identifiers and instants shared by the domain and application layers. */
module Primitives {

  /** A System.Guid, as its 128-bit value. */
  newtype Guid = x: int | 0 <= x < 0x1_0000_0000_0000_0000_0000_0000_0000_0000

  /** Guid.Empty, the all-zero identifier. */
  const EmptyGuid: Guid := 0

  /** A System.DateTime, as its tick count; the clock is an input of every
      operation that reads DateTime.UtcNow. */
  type Timestamp = int

  /** Bounds of a C# `int`. */
  const Int32Min: int := -0x8000_0000
  const Int32Max: int := 0x7FFF_FFFF

  predicate IsInt32(x: int) {
    Int32Min <= x <= Int32Max
  }

  /** The value an unchecked C# `int` operation yields for the exact result `x`. */
  function Wrap32(x: int): (r: int)
    ensures IsInt32(r)
    ensures (r - x) % 0x1_0000_0000 == 0
    ensures IsInt32(x) ==> r == x
  {
    var m := (x - Int32Min) % 0x1_0000_0000;
    m + Int32Min
  }

  /** C# integer division, which truncates toward zero (Dafny's `/` is Euclidean). */
  function CsDiv(a: int, b: int): (q: int)
    requires b != 0
    ensures a >= 0 && b > 0 ==> q == a / b
    ensures q * b == a - CsRem(a, b)
    ensures a >= 0 ==> 0 <= a - q * b < (if b > 0 then b else -b)
    ensures a < 0 ==> -(if b > 0 then b else -b) < a - q * b <= 0
  {
    if a >= 0 then
      if b > 0 then a / b else -(a / -b)
    else
      if b > 0 then -((-a) / b) else (-a) / (-b)
  }

  /** C# remainder, with the sign of the dividend. */
  function CsRem(a: int, b: int): (r: int)
    requires b != 0
    ensures a >= 0 ==> 0 <= r < (if b > 0 then b else -b)
    ensures a < 0 ==> -(if b > 0 then b else -b) < r <= 0
  {
    if a >= 0 then a % (if b > 0 then b else -b) else -((-a) % (if b > 0 then b else -b))
  }
}

=== FILE: product.dfy ===
/** A catalogue product: descriptive fields, a price that must be positive and
    an active flag. Only the price is checked; name, description and category
    are stored as given. */
module Products {
  import opened Wrappers
  import opened Primitives
  import opened DomainErrors
  import opened EntityBases

  /** The fields of a product that the list query reads, as a value. */
  datatype ProductRecord = ProductRecord(id: Guid, name: string, description: string, category: string,
                                         price: real, imageUrl: Option<string>, isActive: bool,
                                         createdAt: Timestamp)

  /** The price check of the constructor and of Update. */
  function PriceError(price: real): (err: Option<DomainError>)
    ensures err.None? <==> price > 0.0
    ensures err.Some? ==> err.value == PriceNotPositive
  {
    if price <= 0.0 then Some(PriceNotPositive) else None
  }

  class Product {
    const entity: EntityBase
    var name: string
    var description: string
    var category: string
    var price: real
    var imageUrl: Option<string>
    var isActive: bool

    /** Every product reachable through Create and Update has a positive price. */
    ghost predicate Valid()
      reads this
    {
      price > 0.0
    }

    function Record(): ProductRecord
      reads this, entity
    {
      ProductRecord(entity.id, name, description, category, price, imageUrl, isActive, entity.createdAt)
    }

    /** Field assignment; the price check that precedes it is in Create. */
    constructor Init(id: Guid, name: string, description: string, category: string, price: real,
                     imageUrl: Option<string>, now: Timestamp)
      ensures fresh(entity)
      ensures Record() == ProductRecord(id, name, description, category, price, imageUrl, true, now)
      ensures entity.updatedAt == None && entity.domainEvents == []
    {
      entity := new EntityBase(id, now);
      this.name := name;
      this.description := description;
      this.category := category;
      this.price := price;
      this.imageUrl := imageUrl;
      isActive := true;
    }

    /** The Product constructor: a price of zero or less is rejected; otherwise
        the product is active and holds the given fields (no image when none is
        given). */
    static method Create(id: Guid, name: string, description: string, category: string, price: real,
                         imageUrl: Option<string>, now: Timestamp)
      returns (r: Result<Product, DomainError>)
      ensures r.Failure? <==> price <= 0.0
      ensures r.Failure? ==> r.error == PriceNotPositive
      ensures r.Success? ==> fresh(r.value) && fresh(r.value.entity) && r.value.Valid()
      ensures r.Success? ==>
        r.value.Record() == ProductRecord(id, name, description, category, price, imageUrl, true, now)
      ensures r.Success? ==> r.value.entity.updatedAt == None && r.value.entity.domainEvents == []
    {
      if price <= 0.0 {
        return Failure(PriceNotPositive);
      }
      var product := new Product.Init(id, name, description, category, price, imageUrl, now);
      return Success(product);
    }

    /** Replaces the five descriptive fields, after the same price check; the
        active flag is kept. */
    method Update(name: string, description: string, category: string, price: real,
                  imageUrl: Option<string>, now: Timestamp) returns (outcome: Outcome<DomainError>)
      modifies this, entity
      ensures outcome.Fail? <==> price <= 0.0
      ensures outcome.Fail? ==>
        outcome.error == PriceNotPositive && Record() == old(Record())
        && entity.updatedAt == old(entity.updatedAt)
      ensures outcome.Pass? ==>
        Record() == old(Record()).(name := name, description := description, category := category,
                                   price := price, imageUrl := imageUrl)
        && entity.updatedAt == Some(now) && Valid()
      ensures entity.domainEvents == old(entity.domainEvents)
    {
      if price <= 0.0 {
        return Fail(PriceNotPositive);
      }
      this.name := name;
      this.description := description;
      this.category := category;
      this.price := price;
      this.imageUrl := imageUrl;
      entity.UpdatedAtNow(now);
      outcome := Pass;
    }

    /** Sets the product active whatever it was; only UpdatedAt changes besides. */
    method Activate(now: Timestamp)
      modifies this, entity
      ensures Record() == old(Record()).(isActive := true)
      ensures old(Valid()) ==> Valid()
      ensures entity.updatedAt == Some(now) && entity.domainEvents == old(entity.domainEvents)
    {
      isActive := true;
      entity.UpdatedAtNow(now);
    }

    /** Sets the product inactive whatever it was; only UpdatedAt changes besides. */
    method Deactivate(now: Timestamp)
      modifies this, entity
      ensures Record() == old(Record()).(isActive := false)
      ensures old(Valid()) ==> Valid()
      ensures entity.updatedAt == Some(now) && entity.domainEvents == old(entity.domainEvents)
    {
      isActive := false;
      entity.UpdatedAtNow(now);
    }
  }
}

=== FILE: products_query.dfy ===
/** GetAllProductsQueryHandler.Handle over the products the repository
    returned: optional filters, sorting by a named field, the count, then one
    page. The repository read and the DTO mapping are outside the model. */
module ProductsQuery {
  import opened Wrappers
  import opened Text
  import opened Linq
  import opened Pagination
  import opened Products

  /** GetAllProductsQuery; absent filters and a null Category or SortDirection are None. */
  datatype GetAllProductsQuery = GetAllProductsQuery(page: int, pageSize: int, sortBy: string,
                                                     sortDirection: Option<string>,
                                                     minPrice: Option<real>, maxPrice: Option<real>,
                                                     category: Option<string>, isActive: Option<bool>)

  /** The query's defaults: first page of ten, by name, ascending. */
  const DefaultQuery: GetAllProductsQuery :=
    GetAllProductsQuery(1, 10, "Name", Some("asc"), None, None, None, None)

  datatype ProductSortField = ByName | ByPrice | ByCategory | ByCreatedAt

  /** The switch on sortBy.ToLower(); an unknown name sorts by Name. */
  function SortFieldOf(sortBy: string): (f: ProductSortField)
    ensures ToLower(sortBy) == "price" <==> f == ByPrice
    ensures ToLower(sortBy) == "category" <==> f == ByCategory
    ensures ToLower(sortBy) == "createdat" <==> f == ByCreatedAt
  {
    match ToLower(sortBy)
    case "name" => ByName
    case "price" => ByPrice
    case "category" => ByCategory
    case "createdat" => ByCreatedAt
    case _ => ByName
  }

  function SortKeyOf(field: ProductSortField, p: ProductRecord): SortKey {
    match field
    case ByName => Text(p.name)
    case ByPrice => Number(p.price)
    case ByCategory => Text(p.category)
    case ByCreatedAt => Number(p.createdAt as real)
  }

  function ProductKey(field: ProductSortField): ProductRecord -> SortKey {
    (p: ProductRecord) => SortKeyOf(field, p)
  }

  /** ApplySorting, with the same direction rule as the sales query. */
  function ApplySorting(products: seq<ProductRecord>, sortBy: string, sortDirection: Option<string>)
    : (r: seq<ProductRecord>)
    ensures multiset(r) == multiset(products)
    ensures Sorted(r, ProductKey(SortFieldOf(sortBy)), IsAscending(sortDirection))
  {
    OrderBy(products, ProductKey(SortFieldOf(sortBy)), IsAscending(sortDirection))
  }

  function CategoryIs(category: string): ProductRecord -> bool {
    (p: ProductRecord) => ToLower(p.category) == ToLower(category)
  }
  function PricedFrom(min: real): ProductRecord -> bool { (p: ProductRecord) => p.price >= min }
  function PricedUpTo(max: real): ProductRecord -> bool { (p: ProductRecord) => p.price <= max }
  function ActiveIs(active: bool): ProductRecord -> bool { (p: ProductRecord) => p.isActive == active }

  /** The four filters, each applied only when the query sets it; an empty
      Category sets none. */
  function ApplyFilters(products: seq<ProductRecord>, q: GetAllProductsQuery): seq<ProductRecord> {
    var byCategory := if !IsNullOrEmpty(q.category) then Where(products, CategoryIs(q.category.value)) else products;
    var fromMin := if q.minPrice.Some? then Where(byCategory, PricedFrom(q.minPrice.value)) else byCategory;
    var upToMax := if q.maxPrice.Some? then Where(fromMin, PricedUpTo(q.maxPrice.value)) else fromMin;
    if q.isActive.Some? then Where(upToMax, ActiveIs(q.isActive.value)) else upToMax
  }

  /** A product passes every filter the query sets: the category matches
      ignoring case, the price lies within the inclusive bounds, the active
      flag is the requested one. */
  predicate Matches(q: GetAllProductsQuery, p: ProductRecord) {
    (!IsNullOrEmpty(q.category) ==> ToLower(p.category) == ToLower(q.category.value))
    && (q.minPrice.Some? ==> p.price >= q.minPrice.value)
    && (q.maxPrice.Some? ==> p.price <= q.maxPrice.value)
    && (q.isActive.Some? ==> p.isActive == q.isActive.value)
  }

  /** The chained filters keep exactly the products that match, with their multiplicity. */
  lemma ApplyFiltersCount(products: seq<ProductRecord>, q: GetAllProductsQuery, x: ProductRecord)
    ensures multiset(ApplyFilters(products, q))[x] == if Matches(q, x) then multiset(products)[x] else 0
  {
    var byCategory := if !IsNullOrEmpty(q.category) then Where(products, CategoryIs(q.category.value)) else products;
    var fromMin := if q.minPrice.Some? then Where(byCategory, PricedFrom(q.minPrice.value)) else byCategory;
    var upToMax := if q.maxPrice.Some? then Where(fromMin, PricedUpTo(q.maxPrice.value)) else fromMin;
    if !IsNullOrEmpty(q.category) { WhereCount(products, CategoryIs(q.category.value), x); }
    if q.minPrice.Some? { WhereCount(byCategory, PricedFrom(q.minPrice.value), x); }
    if q.maxPrice.Some? { WhereCount(fromMin, PricedUpTo(q.maxPrice.value), x); }
    if q.isActive.Some? { WhereCount(upToMax, ActiveIs(q.isActive.value), x); }
  }

  /** The matching products in the requested order: what Handle counts and pages. */
  function Selected(products: seq<ProductRecord>, q: GetAllProductsQuery): seq<ProductRecord> {
    ApplySorting(ApplyFilters(products, q), q.sortBy, q.sortDirection)
  }

  function Handle(products: seq<ProductRecord>, q: GetAllProductsQuery)
    : Result<PaginatedResult<ProductRecord>, PageError>
  {
    var sorted := Selected(products, q);
    NewPaginatedResult(PageOf(sorted, q.page, q.pageSize), |sorted|, q.page, q.pageSize)
  }

  /** The selection holds exactly the matching products of the input, each as
      often as in the input, ordered by the selected key and direction. */
  lemma SelectedSpec(products: seq<ProductRecord>, q: GetAllProductsQuery)
    ensures forall x :: multiset(Selected(products, q))[x] == if Matches(q, x) then multiset(products)[x] else 0
    ensures Sorted(Selected(products, q), ProductKey(SortFieldOf(q.sortBy)), IsAscending(q.sortDirection))
    ensures |Selected(products, q)| == |ApplyFilters(products, q)|
  {
    var filtered := ApplyFilters(products, q);
    assert |Selected(products, q)| == |multiset(Selected(products, q))| == |multiset(filtered)| == |filtered|;
    forall x ensures multiset(Selected(products, q))[x] == if Matches(q, x) then multiset(products)[x] else 0 {
      ApplyFiltersCount(products, q, x);
    }
  }

  /** Handle fails only on a zero page size; otherwise it reports the count of
      the matching products before paging, echoes Page and PageSize, and
      returns the page of the selection. */
  lemma HandleSpec(products: seq<ProductRecord>, q: GetAllProductsQuery)
    ensures Handle(products, q).Failure? <==> q.pageSize == 0
    ensures Handle(products, q).Success? ==>
      var r := Handle(products, q).value;
      r.currentPage == q.page && r.pageSize == q.pageSize
      && r.totalItems == |ApplyFilters(products, q)|
      && r.data == PageOf(Selected(products, q), q.page, q.pageSize)
  {
    SelectedSpec(products, q);
  }

  /** Every element of the selection is a matching element of the input. */
  lemma SelectedInSource(products: seq<ProductRecord>, q: GetAllProductsQuery, x: ProductRecord)
    requires x in Selected(products, q)
    ensures Matches(q, x) && x in products
  {
    SelectedSpec(products, q);
    assert multiset(Selected(products, q))[x] > 0;
  }

  /** For Page >= 1 the page is the slice of at most PageSize selected products
      starting at (Page - 1) * PageSize, and every product on it is a matching
      product of the input. */
  lemma HandlePage(products: seq<ProductRecord>, q: GetAllProductsQuery)
    requires q.page >= 1 && q.pageSize > 0
    ensures Handle(products, q).Success?
    ensures Handle(products, q).value.data
      == Selected(products, q)[Min(PageOffset(q.page, q.pageSize), |Selected(products, q)|)..Min(PageOffset(q.page, q.pageSize) + q.pageSize, |Selected(products, q)|)]
    ensures |Handle(products, q).value.data| <= q.pageSize
    ensures forall x :: x in Handle(products, q).value.data ==> Matches(q, x) && x in products
  {
    var sorted := Selected(products, q);
    PageOfIsSlice(sorted, q.page, q.pageSize);
    var data := PageOf(sorted, q.page, q.pageSize);
    HandleSpec(products, q);
    forall x | x in data ensures Matches(q, x) && x in products {
      var i :| 0 <= i < |data| && data[i] == x;
      PageInSource(sorted, q.page, q.pageSize, i);
      SelectedInSource(products, q, x);
    }
  }

  /** The default query sorts by Name, ascending. */
  lemma DefaultQueryOrder()
    ensures SortFieldOf(DefaultQuery.sortBy) == ByName
    ensures IsAscending(DefaultQuery.sortDirection)
  {
    var field := ToLower("Name");
    assert |field| == 4 && forall i :: 0 <= i < 4 ==> field[i] == "name"[i];
    assert field == "name";
    var direction := ToLower("asc");
    assert |direction| == 3 && forall i :: 0 <= i < 3 ==> direction[i] == "asc"[i];
    assert direction == "asc";
  }

  /** The default query returns the first ten products of the selection. */
  lemma DefaultQueryFirstPage(products: seq<ProductRecord>)
    ensures Handle(products, DefaultQuery).Success?
    ensures var sorted := Selected(products, DefaultQuery);
      Handle(products, DefaultQuery).value.data == sorted[..Min(10, |sorted|)]
  {
    HandlePage(products, DefaultQuery);
  }
}

=== FILE: sale.dfy ===
/** The Sale aggregate: an ordered list of line items, a total kept equal to
    the sum of the line totals, a status lifecycle and the domain events each
    operation raises. */
module Sales {
  import opened Wrappers
  import opened Primitives
  import opened SaleEvents
  import opened DomainErrors
  import opened EntityBases
  import opened SaleItems

  datatype SaleStatus = Created | Processing | Completed | Canceled

  /** The sum of the line totals (Enumerable.Sum over TotalPrice). */
  function Total(lines: seq<ItemLine>): real {
    if lines == [] then 0.0 else lines[0].TotalPrice() + Total(lines[1..])
  }

  lemma {:induction false} TotalAppend(lines: seq<ItemLine>, line: ItemLine)
    ensures Total(lines + [line]) == Total(lines) + line.TotalPrice()
  {
    if lines != [] {
      assert (lines + [line])[1..] == lines[1..] + [line];
      TotalAppend(lines[1..], line);
    }
  }

  /** Replacing one line changes the total by exactly that line's difference. */
  lemma {:induction false} TotalUpdate(lines: seq<ItemLine>, k: nat, line: ItemLine)
    requires k < |lines|
    ensures Total(lines[k := line]) == Total(lines) - lines[k].TotalPrice() + line.TotalPrice()
  {
    if k > 0 {
      assert lines[k := line][1..] == lines[1..][k - 1 := line];
      TotalUpdate(lines[1..], k - 1, line);
    }
  }

  /** Removing one line takes exactly its total away. */
  lemma {:induction false} TotalRemove(lines: seq<ItemLine>, k: nat)
    requires k < |lines|
    ensures Total(lines[..k] + lines[k + 1..]) == Total(lines) - lines[k].TotalPrice()
  {
    if k == 0 {
      assert lines[..0] + lines[1..] == lines[1..];
    } else {
      assert (lines[..k] + lines[k + 1..])[1..] == lines[1..][..k - 1] + lines[1..][k..];
      TotalRemove(lines[1..], k - 1);
    }
  }

  /** The total of valid lines is never negative, and positive when there is a line. */
  lemma {:induction false} TotalPositive(lines: seq<ItemLine>)
    requires forall j :: 0 <= j < |lines| ==> lines[j].Valid()
    ensures Total(lines) >= 0.0
    ensures lines != [] ==> Total(lines) > 0.0
  {
    if lines != [] {
      ValidLineTotal(lines[0]);
      TotalPositive(lines[1..]);
    }
  }

  /** List.FirstOrDefault(i => i.Id == id), as a position. */
  function LineIndex(lines: seq<ItemLine>, id: Guid): (r: Option<nat>)
    ensures r.Some? ==> r.value < |lines| && lines[r.value].id == id
    ensures r.Some? ==> forall j :: 0 <= j < r.value ==> lines[j].id != id
    ensures r.None? <==> forall j :: 0 <= j < |lines| ==> lines[j].id != id
  {
    if lines == [] then None
    else if lines[0].id == id then Some(0)
    else match LineIndex(lines[1..], id)
      case None => None
      case Some(k) => Some(k + 1)
  }

  /** The sum RecalculateTotalAmount computes, over the item objects. */
  function SumOfTotals(items: seq<SaleItem>): real
    reads items
  {
    if items == [] then 0.0 else items[0].TotalPrice() + SumOfTotals(items[1..])
  }

  lemma {:induction false} SumOfTotalsIsTotal(items: seq<SaleItem>, lines: seq<ItemLine>)
    requires |items| == |lines|
    requires forall j :: 0 <= j < |items| ==> items[j].View() == lines[j]
    ensures SumOfTotals(items) == Total(lines)
  {
    if items != [] {
      SumOfTotalsIsTotal(items[1..], lines[1..]);
    }
  }

  /** The item objects are owned by repr, pairwise distinct, and so are their
      entities, none of which is the sale's own. Only identities and constant
      fields are involved, so no heap update can break it. */
  ghost predicate OwnedItems(items: seq<SaleItem>, repr: set<object>, owner: EntityBase) {
    (forall j :: 0 <= j < |items| ==>
       items[j] in repr && items[j].entity in repr && items[j].entity != owner)
    && (forall j, k :: 0 <= j < k < |items| ==>
          items[j] != items[k] && items[j].entity != items[k].entity)
  }

  /** Every line is valid and belongs to the sale, and no two lines share an id. */
  ghost predicate WellFormedLines(lines: seq<ItemLine>, saleId: Guid) {
    (forall j, k :: 0 <= j < k < |lines| ==> lines[j].id != lines[k].id)
    && (forall j :: 0 <= j < |lines| ==> lines[j].Valid() && lines[j].saleId == saleId)
  }

  /** The item objects currently hold exactly the given lines, in order. */
  ghost predicate Shows(items: seq<SaleItem>, lines: seq<ItemLine>)
    reads items
  {
    |items| == |lines| && forall j :: 0 <= j < |items| ==> items[j].View() == lines[j]
  }

  lemma OwnedItemsAppend(items: seq<SaleItem>, repr: set<object>, owner: EntityBase, item: SaleItem)
    requires OwnedItems(items, repr, owner)
    requires item !in repr && item.entity !in repr && item.entity != owner
    ensures OwnedItems(items + [item], repr + {item, item.entity}, owner)
  {
  }

  lemma OwnedItemsRemove(items: seq<SaleItem>, repr: set<object>, owner: EntityBase, k: nat)
    requires OwnedItems(items, repr, owner) && k < |items|
    ensures OwnedItems(items[..k] + items[k + 1..], repr, owner)
  {
    var rest := items[..k] + items[k + 1..];
    assert forall j :: 0 <= j < |rest| ==> rest[j] == items[if j < k then j else j + 1];
  }

  lemma WellFormedLinesAppend(lines: seq<ItemLine>, saleId: Guid, line: ItemLine)
    requires WellFormedLines(lines, saleId)
    requires line.Valid() && line.saleId == saleId && LineIndex(lines, line.id).None?
    ensures WellFormedLines(lines + [line], saleId)
  {
  }

  lemma WellFormedLinesRemove(lines: seq<ItemLine>, saleId: Guid, k: nat)
    requires WellFormedLines(lines, saleId) && k < |lines|
    ensures WellFormedLines(lines[..k] + lines[k + 1..], saleId)
  {
    var rest := lines[..k] + lines[k + 1..];
    assert forall j :: 0 <= j < |rest| ==> rest[j] == lines[if j < k then j else j + 1];
  }

  lemma WellFormedLinesUpdate(lines: seq<ItemLine>, saleId: Guid, k: nat, quantity: int)
    requires WellFormedLines(lines, saleId) && k < |lines|
    requires 1 <= quantity <= MaxIdenticalItems
    ensures WellFormedLines(lines[k := lines[k].WithQuantity(quantity)], saleId)
  {
  }

  lemma ShowsRemove(items: seq<SaleItem>, lines: seq<ItemLine>, k: nat)
    requires Shows(items, lines) && k < |items|
    ensures Shows(items[..k] + items[k + 1..], lines[..k] + lines[k + 1..])
  {
    var rest, restLines := items[..k] + items[k + 1..], lines[..k] + lines[k + 1..];
    assert forall j :: 0 <= j < |rest| ==>
      rest[j] == items[if j < k then j else j + 1] && restLines[j] == lines[if j < k then j else j + 1];
  }

  /** The fields of a sale that the list query reads, as a value. */
  datatype SaleRecord = SaleRecord(id: Guid, saleNumber: int, saleDate: Timestamp,
                                   customerId: Guid, customerName: string,
                                   branchId: Guid, branchName: string,
                                   totalAmount: real, status: SaleStatus)

  class Sale {
    const entity: EntityBase
    const saleNumber: int
    const saleDate: Timestamp
    const customerId: Guid
    const customerName: string
    const branchId: Guid
    const branchName: string
    var totalAmount: real
    var status: SaleStatus
    var items: seq<SaleItem>

    /** The items, as values, in list order. */
    ghost var Lines: seq<ItemLine>
    ghost var Repr: set<object>

    /** Everything the aggregate keeps true except the total: each item object
        is owned, distinct and shown by Lines; the lines are valid, belong to
        this sale and have distinct ids. */
    ghost predicate Consistent()
      reads this, Repr
    {
      this in Repr && entity in Repr
      && OwnedItems(items, Repr, entity)
      && WellFormedLines(Lines, entity.id)
      && Shows(items, Lines)
    }

    /** The aggregate invariant: TotalAmount is the sum of the line totals. */
    ghost predicate Valid()
      reads this, Repr
    {
      Consistent() && totalAmount == Total(Lines)
    }

    predicate IsCanceled()
      reads this
    {
      status == Canceled
    }

    function Record(): SaleRecord
      reads this
    {
      SaleRecord(entity.id, saleNumber, saleDate, customerId, customerName,
                 branchId, branchName, totalAmount, status)
    }

    /** A new sale: Created, no items, total zero, and one SaleCreated event. */
    constructor (id: Guid, saleNumber: int, customerId: Guid, customerName: string,
                 branchId: Guid, branchName: string, now: Timestamp)
      ensures Valid() && fresh(Repr)
      ensures entity.id == id && entity.createdAt == now && entity.updatedAt == None
      ensures this.saleNumber == saleNumber && saleDate == now
      ensures this.customerId == customerId && this.customerName == customerName
      ensures this.branchId == branchId && this.branchName == branchName
      ensures status == Created && !IsCanceled()
      ensures items == [] && Lines == [] && totalAmount == 0.0
      ensures entity.domainEvents == [SaleCreated(id, saleNumber, customerId, branchId, now)]
    {
      entity := new EntityBase(id, now);
      this.saleNumber := saleNumber;
      saleDate := now;
      this.customerId := customerId;
      this.customerName := customerName;
      this.branchId := branchId;
      this.branchName := branchName;
      status := Created;
      totalAmount := 0.0;
      items := [];
      Lines := [];
      new;
      Repr := {this, entity};
      entity.AddDomainEvent(SaleCreated(id, saleNumber, customerId, branchId, now));
    }

    /** FirstOrDefault over the items by id, as a position. */
    method FindItem(itemId: Guid) returns (index: Option<nat>)
      requires Valid()
      ensures index == LineIndex(Lines, itemId)
    {
      var j := 0;
      while j < |items|
        invariant 0 <= j <= |items|
        invariant forall i :: 0 <= i < j ==> Lines[i].id != itemId
      {
        if items[j].entity.id == itemId {
          return Some(j);
        }
        j := j + 1;
      }
      return None;
    }

    method RecalculateTotalAmount()
      requires Consistent()
      modifies this`totalAmount
      ensures Valid()
    {
      totalAmount := SumOfTotals(items);
      SumOfTotalsIsTotal(items, Lines);
    }

    /** Appends a new item object of this sale and recomputes the total. */
    method AppendItem(item: SaleItem)
      requires Valid()
      requires item !in Repr && item.entity !in Repr
      requires item.Valid() && item.saleId == entity.id && LineIndex(Lines, item.entity.id).None?
      modifies this`items, this`Lines, this`Repr, this`totalAmount
      ensures Valid()
      ensures items == old(items) + [item] && Lines == old(Lines) + [item.View()]
      ensures Repr == old(Repr) + {item, item.entity}
      ensures totalAmount == old(totalAmount) + item.TotalPrice()
    {
      TotalAppend(Lines, item.View());
      OwnedItemsAppend(items, Repr, entity, item);
      WellFormedLinesAppend(Lines, entity.id, item.View());
      items := items + [item];
      Lines := Lines + [item.View()];
      Repr := Repr + {item, item.entity};
      RecalculateTotalAmount();
    }

    /** Drops the item at position k and recomputes the total. */
    method DropItem(k: nat)
      requires Valid() && k < |items|
      modifies this`items, this`Lines, this`totalAmount
      ensures Valid()
      ensures items == old(items)[..k] + old(items)[k + 1..]
      ensures Lines == old(Lines)[..k] + old(Lines)[k + 1..]
      ensures totalAmount == old(totalAmount) - old(Lines)[k].TotalPrice()
    {
      TotalRemove(Lines, k);
      OwnedItemsRemove(items, Repr, entity, k);
      WellFormedLinesRemove(Lines, entity.id, k);
      ShowsRemove(items, Lines, k);
      items := items[..k] + items[k + 1..];
      Lines := Lines[..k] + Lines[k + 1..];
      RecalculateTotalAmount();
    }

    /** UpdateQuantity on the item at position k, in place, and the new total. */
    method UpdateItemAt(k: nat, quantity: int, now: Timestamp) returns (outcome: Outcome<DomainError>)
      requires Valid() && k < |items|
      modifies items[k], items[k].entity, this`Lines, this`totalAmount
      ensures Valid()
      ensures outcome == (if QuantityError(quantity).Some? then Fail(QuantityError(quantity).value) else Pass)
      ensures outcome.Fail? ==>
        Lines == old(Lines) && totalAmount == old(totalAmount) && unchanged(items[k], items[k].entity)
      ensures outcome.Pass? ==>
        Lines == old(Lines)[k := old(Lines)[k].WithQuantity(quantity)]
        && totalAmount == old(totalAmount) - old(Lines)[k].TotalPrice() + Lines[k].TotalPrice()
        && items[k].entity.updatedAt == Some(now)
        && items[k].entity.domainEvents == old(items[k].entity.domainEvents)
    {
      var item := items[k];
      assert forall j :: 0 <= j < |items| && j != k ==> items[j] != item;
      outcome := item.UpdateQuantity(quantity, now);
      if outcome.Fail? {
        return;
      }
      TotalUpdate(Lines, k, item.View());
      WellFormedLinesUpdate(Lines, entity.id, k, quantity);
      Lines := Lines[k := item.View()];
      RecalculateTotalAmount();
    }

    /** Rejects more than 20 items itself, then lets the item's own checks
        decide; on success appends the item, recomputes the total and raises
        SaleModified. The status is not consulted. */
    method AddItem(itemId: Guid, productId: Guid, productName: string, quantity: int,
                   unitPrice: real, now: Timestamp) returns (outcome: Outcome<DomainError>)
      requires Valid()
      requires LineIndex(Lines, itemId).None?  // Guid.NewGuid gives an id no item has
      modifies Repr
      ensures Valid() && fresh(Repr - old(Repr))
      ensures status == old(status)
      ensures outcome.Fail? <==> CreationError(quantity, unitPrice).Some?
      ensures outcome.Fail? ==> outcome.error == CreationError(quantity, unitPrice).value
      ensures outcome.Fail? ==>
        items == old(items) && Lines == old(Lines) && totalAmount == old(totalAmount)
        && entity.domainEvents == old(entity.domainEvents) && entity.updatedAt == old(entity.updatedAt)
      ensures outcome.Fail? ==> Repr == old(Repr) && unchanged(Repr)
      ensures outcome.Pass? ==>
        forall j :: 0 <= j < |old(items)| ==> unchanged(old(items)[j], old(items)[j].entity)
      ensures outcome.Pass? ==>
        Lines == old(Lines) + [ItemLine(itemId, entity.id, productId, productName, quantity,
                                        unitPrice, Discount(quantity, unitPrice))]
      ensures outcome.Pass? ==>
        |items| == |old(items)| + 1 && items[..|old(items)|] == old(items) && fresh(items[|old(items)|])
      ensures outcome.Pass? ==>
        var added := items[|old(items)|].entity;
        fresh(added) && added.id == itemId && added.createdAt == now
        && added.updatedAt == None && added.domainEvents == []
      ensures outcome.Pass? ==> totalAmount == old(totalAmount) + LineTotal(quantity, unitPrice)
      ensures outcome.Pass? ==>
        entity.domainEvents == old(entity.domainEvents) + [SaleModified(entity.id, saleNumber, now)]
        && entity.updatedAt == Some(now)
    {
      if quantity > MaxIdenticalItems {
        return Fail(QuantityAboveLimit);
      }
      var created := SaleItem.Create(itemId, entity.id, productId, productName, quantity, unitPrice, now);
      if created.Failure? {
        return Fail(created.error);
      }
      var item := created.value;
      entity.AddDomainEvent(SaleModified(entity.id, saleNumber, now));
      entity.UpdatedAtNow(now);
      ValidLineTotal(item.View());
      AppendItem(item);
      outcome := Pass;
    }

    /** Finds the item by id and delegates to its UpdateQuantity; on success
        recomputes the total and raises SaleModified. */
    method UpdateItem(itemId: Guid, quantity: int, now: Timestamp) returns (outcome: Outcome<DomainError>)
      requires Valid()
      modifies Repr
      ensures Valid() && Repr == old(Repr)
      ensures items == old(items) && status == old(status)
      ensures LineIndex(old(Lines), itemId).None? ==> outcome == Fail(ItemNotFound)
      ensures LineIndex(old(Lines), itemId).Some? ==>
        outcome == (if QuantityError(quantity).Some? then Fail(QuantityError(quantity).value) else Pass)
      ensures outcome.Fail? ==>
        Lines == old(Lines) && totalAmount == old(totalAmount)
        && entity.domainEvents == old(entity.domainEvents) && entity.updatedAt == old(entity.updatedAt)
      ensures outcome.Fail? ==> unchanged(Repr)
      ensures outcome.Pass? ==>
        var k := LineIndex(old(Lines), itemId).value;
        Lines == old(Lines)[k := old(Lines)[k].WithQuantity(quantity)]
        && totalAmount == old(totalAmount) - old(Lines)[k].TotalPrice() + Lines[k].TotalPrice()
        && items[k].entity.updatedAt == Some(now)
        && items[k].entity.domainEvents == old(items[k].entity.domainEvents)
        && forall j :: 0 <= j < |items| && j != k ==> unchanged(items[j], items[j].entity)
      ensures outcome.Pass? ==>
        entity.domainEvents == old(entity.domainEvents) + [SaleModified(entity.id, saleNumber, now)]
        && entity.updatedAt == Some(now)
    {
      var found := FindItem(itemId);
      if found.None? {
        return Fail(ItemNotFound);
      }
      outcome := UpdateItemAt(found.value, quantity, now);
      if outcome.Fail? {
        return;
      }
      entity.AddDomainEvent(SaleModified(entity.id, saleNumber, now));
      entity.UpdatedAtNow(now);
    }

    /** Finds the item by id, records its ItemCanceled event and drops it from
        the list; then recomputes the total and raises SaleModified. */
    method RemoveItem(itemId: Guid, now: Timestamp) returns (outcome: Outcome<DomainError>)
      requires Valid()
      modifies Repr
      ensures Valid() && Repr == old(Repr)
      ensures status == old(status)
      ensures outcome.Fail? <==> LineIndex(old(Lines), itemId).None?
      ensures outcome.Fail? ==>
        outcome.error == ItemNotFound
        && items == old(items) && Lines == old(Lines) && totalAmount == old(totalAmount)
        && entity.domainEvents == old(entity.domainEvents) && entity.updatedAt == old(entity.updatedAt)
      ensures outcome.Fail? ==> unchanged(Repr)
      ensures outcome.Pass? ==>
        var k := LineIndex(old(Lines), itemId).value;
        unchanged(old(items)[k]) && old(items)[k].entity.updatedAt == old(items[k].entity.updatedAt)
      ensures outcome.Pass? ==> forall j :: 0 <= j < |items| ==> unchanged(items[j], items[j].entity)
      ensures outcome.Pass? ==>
        var k := LineIndex(old(Lines), itemId).value;
        items == old(items)[..k] + old(items)[k + 1..]
        && Lines == old(Lines)[..k] + old(Lines)[k + 1..]
        && totalAmount == old(totalAmount) - old(Lines)[k].TotalPrice()
        && old(items)[k].entity.domainEvents ==
             old(items[k].entity.domainEvents)
             + [ItemCanceled(entity.id, itemId, old(Lines)[k].productId, old(Lines)[k].quantity, now)]
      ensures outcome.Pass? ==>
        entity.domainEvents == old(entity.domainEvents) + [SaleModified(entity.id, saleNumber, now)]
        && entity.updatedAt == Some(now)
    {
      var found := FindItem(itemId);
      if found.None? {
        return Fail(ItemNotFound);
      }
      var k := found.value;
      var item := items[k];
      item.Cancel(now);
      entity.AddDomainEvent(SaleModified(entity.id, saleNumber, now));
      entity.UpdatedAtNow(now);
      DropItem(k);
      outcome := Pass;
    }

    /** Moves a sale that is not yet canceled to Canceled and raises
        SaleCanceled; a canceled sale is rejected. Items and total stay. */
    method Cancel(now: Timestamp) returns (outcome: Outcome<DomainError>)
      requires Valid()
      modifies this, entity
      ensures Valid() && Repr == old(Repr)
      ensures items == old(items) && Lines == old(Lines) && totalAmount == old(totalAmount)
      ensures IsCanceled()
      ensures outcome.Fail? <==> old(IsCanceled())
      ensures outcome.Fail? ==>
        outcome.error == SaleAlreadyCanceled
        && entity.domainEvents == old(entity.domainEvents) && entity.updatedAt == old(entity.updatedAt)
      ensures outcome.Pass? ==>
        entity.domainEvents == old(entity.domainEvents) + [SaleCanceled(entity.id, saleNumber, now)]
        && entity.updatedAt == Some(now)
    {
      if status == Canceled {
        return Fail(SaleAlreadyCanceled);
      }
      status := Canceled;
      entity.AddDomainEvent(SaleCanceled(entity.id, saleNumber, now));
      entity.UpdatedAtNow(now);
      outcome := Pass;
    }
  }
}

=== FILE: sale_events.dfy ===
/** The domain events the Sale aggregate records. Each is an immutable record
    built once from the values passed to it and the instant it was raised. */
module SaleEvents {
  import opened Primitives

  datatype DomainEvent =
    | SaleCreated(saleId: Guid, saleNumber: int, customerId: Guid, branchId: Guid, timestamp: Timestamp)
    | SaleModified(saleId: Guid, saleNumber: int, timestamp: Timestamp)
    | SaleCanceled(saleId: Guid, saleNumber: int, timestamp: Timestamp)
    | ItemCanceled(saleId: Guid, itemId: Guid, productId: Guid, quantity: int, timestamp: Timestamp)
}

=== FILE: sale_item.dfy ===
/** A sale's line item: the quantity and unit-price rules, the tiered volume
    discount and the line total. */
module SaleItems {
  import opened Wrappers
  import opened Primitives
  import opened SaleEvents
  import opened DomainErrors
  import opened EntityBases

  /** Most identical items one line may hold. */
  const MaxIdenticalItems: int := 20

  /** The discount percentage, chosen top-down: 20% for 10..20 items, otherwise
      10% from 4 items up, otherwise none. */
  function DiscountRate(quantity: int): (rate: real)
    ensures rate == 0.0 || rate == 0.1 || rate == 0.2
    ensures quantity < 4 <==> rate == 0.0
  {
    if 10 <= quantity <= 20 then 0.2
    else if quantity >= 4 then 0.1
    else 0.0
  }

  /** CalculateDiscount: the discount amount of a line. */
  function Discount(quantity: int, unitPrice: real): (d: real)
    ensures quantity > 0 && unitPrice > 0.0 ==>
      0.0 <= d <= unitPrice * quantity as real * 0.2
    ensures quantity < 4 ==> d == 0.0
  {
    unitPrice * quantity as real * DiscountRate(quantity)
  }

  /** More items never earn a smaller rate, within the quantities an item may hold. */
  lemma DiscountRateMonotone(a: int, b: int)
    requires 1 <= a <= b <= MaxIdenticalItems
    ensures DiscountRate(a) <= DiscountRate(b)
  {
  }

  /** The three tiers, on the quantities an item may hold. */
  lemma DiscountTiers(quantity: int, unitPrice: real)
    requires 1 <= quantity <= MaxIdenticalItems
    ensures 1 <= quantity <= 3 ==> Discount(quantity, unitPrice) == 0.0
    ensures 4 <= quantity <= 9 ==> Discount(quantity, unitPrice) == unitPrice * quantity as real / 10.0
    ensures 10 <= quantity ==> Discount(quantity, unitPrice) == unitPrice * quantity as real / 5.0
  {
  }

  /** TotalPrice of a line: the subtotal less the discount. For a valid line it
      keeps between 80% and 100% of the subtotal, so it is always positive. */
  function LineTotal(quantity: int, unitPrice: real): (t: real)
    requires 1 <= quantity <= MaxIdenticalItems && unitPrice > 0.0
    ensures unitPrice * quantity as real * 0.8 <= t <= unitPrice * quantity as real
    ensures t > 0.0
    ensures quantity <= 3 <==> t == unitPrice * quantity as real
  {
    var subtotal := unitPrice * quantity as real;
    assert subtotal > 0.0;
    subtotal - Discount(quantity, unitPrice)
  }

  /** The quantity check of the constructor and of UpdateQuantity: more than 20
      is rejected first, then zero or less. */
  function QuantityError(quantity: int): (err: Option<DomainError>)
    ensures err == None <==> 1 <= quantity <= MaxIdenticalItems
    ensures quantity > MaxIdenticalItems ==> err == Some(QuantityAboveLimit)
    ensures quantity <= 0 ==> err == Some(QuantityNotPositive)
  {
    if quantity > MaxIdenticalItems then Some(QuantityAboveLimit)
    else if quantity <= 0 then Some(QuantityNotPositive)
    else None
  }

  /** The constructor's checks, in their order: the first that fails picks the error. */
  function CreationError(quantity: int, unitPrice: real): (err: Option<DomainError>)
    ensures err == None <==> 1 <= quantity <= MaxIdenticalItems && unitPrice > 0.0
    ensures QuantityError(quantity).Some? ==> err == QuantityError(quantity)
    ensures QuantityError(quantity).None? && unitPrice <= 0.0 ==> err == Some(UnitPriceNotPositive)
  {
    if QuantityError(quantity).Some? then QuantityError(quantity)
    else if unitPrice <= 0.0 then Some(UnitPriceNotPositive)
    else None
  }

  /** The observable fields of an item, as a value. */
  datatype ItemLine = ItemLine(id: Guid, saleId: Guid, productId: Guid, productName: string,
                               quantity: int, unitPrice: real, discount: real)
  {
    /** The invariant every item keeps: the quantity and price rules hold and
        the discount matches the quantity. */
    ghost predicate Valid() {
      1 <= quantity <= MaxIdenticalItems && unitPrice > 0.0 && discount == Discount(quantity, unitPrice)
    }

    function TotalPrice(): real {
      unitPrice * quantity as real - discount
    }

    /** The line after UpdateQuantity(q) succeeds: same item, same price, the
        new quantity with its discount; a valid quantity keeps the line valid. */
    function WithQuantity(q: int): (r: ItemLine)
      ensures r.id == id && r.saleId == saleId && r.productId == productId
      ensures r.productName == productName && r.unitPrice == unitPrice && r.quantity == q
      ensures 1 <= q <= MaxIdenticalItems && unitPrice > 0.0 ==> r.Valid()
    {
      this.(quantity := q, discount := Discount(q, unitPrice))
    }
  }

  /** A valid line's total is LineTotal, so it is positive. */
  lemma ValidLineTotal(line: ItemLine)
    requires line.Valid()
    ensures line.TotalPrice() == LineTotal(line.quantity, line.unitPrice) > 0.0
  {
  }

  class SaleItem {
    const entity: EntityBase
    const saleId: Guid
    const productId: Guid
    const productName: string
    var quantity: int
    const unitPrice: real
    var discount: real

    ghost predicate Valid()
      reads this
    {
      View().Valid()
    }

    function View(): ItemLine
      reads this
    {
      ItemLine(entity.id, saleId, productId, productName, quantity, unitPrice, discount)
    }

    /** UnitPrice * Quantity - Discount: for a valid item between 80% and 100%
        of the subtotal, so always positive. */
    function TotalPrice(): (t: real)
      reads this
      ensures t == View().TotalPrice()
      ensures Valid() ==> unitPrice * quantity as real * 0.8 <= t <= unitPrice * quantity as real
      ensures Valid() ==> t > 0.0
    {
      assert Valid() ==> View().TotalPrice() == LineTotal(quantity, unitPrice) by {
        if Valid() {
          ValidLineTotal(View());
        }
      }
      unitPrice * quantity as real - discount
    }

    /** Field assignment and CalculateDiscount; the checks that precede them are
        in Create. */
    constructor Init(id: Guid, saleId: Guid, productId: Guid, productName: string,
                     quantity: int, unitPrice: real, now: Timestamp)
      ensures fresh(entity)
      ensures View() == ItemLine(id, saleId, productId, productName, quantity, unitPrice,
                                 Discount(quantity, unitPrice))
      ensures entity.createdAt == now && entity.updatedAt == None && entity.domainEvents == []
    {
      entity := new EntityBase(id, now);
      this.saleId := saleId;
      this.productId := productId;
      this.productName := productName;
      this.quantity := quantity;
      this.unitPrice := unitPrice;
      discount := Discount(quantity, unitPrice);
    }

    /** The SaleItem constructor: quantity above 20, then quantity not positive,
        then unit price not positive are rejected before any field is set. */
    static method Create(id: Guid, saleId: Guid, productId: Guid, productName: string,
                         quantity: int, unitPrice: real, now: Timestamp)
      returns (r: Result<SaleItem, DomainError>)
      ensures r.Failure? <==> CreationError(quantity, unitPrice).Some?
      ensures r.Failure? ==> r.error == CreationError(quantity, unitPrice).value
      ensures r.Success? ==> fresh(r.value) && fresh(r.value.entity) && r.value.Valid()
      ensures r.Success? ==> r.value.View() == ItemLine(id, saleId, productId, productName, quantity,
                                                         unitPrice, Discount(quantity, unitPrice))
      ensures r.Success? ==>
        r.value.entity.createdAt == now && r.value.entity.updatedAt == None && r.value.entity.domainEvents == []
    {
      if quantity > MaxIdenticalItems {
        return Failure(QuantityAboveLimit);
      }
      if quantity <= 0 {
        return Failure(QuantityNotPositive);
      }
      if unitPrice <= 0.0 {
        return Failure(UnitPriceNotPositive);
      }
      var item := new SaleItem.Init(id, saleId, productId, productName, quantity, unitPrice, now);
      return Success(item);
    }

    /** Checks the new quantity before assigning anything; on success only the
        quantity, the discount and UpdatedAt change. */
    method UpdateQuantity(quantity: int, now: Timestamp) returns (outcome: Outcome<DomainError>)
      modifies this, entity
      ensures outcome.Fail? <==> QuantityError(quantity).Some?
      ensures outcome.Fail? ==> outcome.error == QuantityError(quantity).value
      ensures outcome.Fail? ==> unchanged(this, entity)
      ensures outcome.Pass? ==> View() == old(View()).WithQuantity(quantity)
      ensures outcome.Pass? ==> entity.updatedAt == Some(now)
      ensures old(Valid()) ==> Valid()
      ensures entity.domainEvents == old(entity.domainEvents)
    {
      if quantity > MaxIdenticalItems {
        return Fail(QuantityAboveLimit);
      }
      if quantity <= 0 {
        return Fail(QuantityNotPositive);
      }
      this.quantity := quantity;
      discount := Discount(quantity, unitPrice);
      entity.UpdatedAtNow(now);
      return Pass;
    }

    /** Records an ItemCanceled event with the item's current values; no field
        of the item changes. */
    method Cancel(now: Timestamp)
      modifies entity
      ensures entity.domainEvents ==
        old(entity.domainEvents) + [ItemCanceled(saleId, entity.id, productId, quantity, now)]
      ensures entity.updatedAt == old(entity.updatedAt)
    {
      entity.AddDomainEvent(ItemCanceled(saleId, entity.id, productId, quantity, now));
    }
  }
}

=== FILE: sale_scenarios.dfy ===
/** The worked examples of the sale operations, followed through the
    contracts of Sale: two lines of 2 x 50 and 3 x 30 (no discount below four
    items) add up to 190, raising the first to 3 x 50 gives 150, and removing
    a 100 line from 100 + 90 leaves 90. */
module SaleScenarios {
  import opened Wrappers
  import opened Sales

  method TwoItemsTotal() returns (total: real, events: nat)
    ensures total == 190.0 && events == 3
  {
    var sale := new Sale(1, 1001, 2, "Customer", 3, "Branch", 0);
    var first := sale.AddItem(10, 20, "Product A", 2, 50.0, 1);
    var second := sale.AddItem(11, 21, "Product B", 3, 30.0, 2);
    total := sale.totalAmount;
    events := |sale.entity.domainEvents|;
  }

  method UpdatedQuantityTotal() returns (total: real, quantity: int)
    ensures total == 150.0 && quantity == 3
  {
    var sale := new Sale(1, 1001, 2, "Customer", 3, "Branch", 0);
    var added := sale.AddItem(10, 20, "Product A", 2, 50.0, 1);
    var updated := sale.UpdateItem(10, 3, 2);
    total := sale.totalAmount;
    quantity := sale.items[0].quantity;
  }

  method RemovedItemTotal() returns (total: real, count: nat)
    ensures total == 90.0 && count == 1
  {
    var sale := new Sale(1, 1001, 2, "Customer", 3, "Branch", 0);
    var first := sale.AddItem(10, 20, "Product A", 2, 50.0, 1);
    var second := sale.AddItem(11, 21, "Product B", 3, 30.0, 2);
    var removed := sale.RemoveItem(10, 3);
    total := sale.totalAmount;
    count := |sale.items|;
  }

  /** A 21-item line is refused and the sale keeps its state. */
  method OverLimitRejected() returns (outcome: Outcome<DomainErrors.DomainError>, total: real, count: nat)
    ensures outcome == Fail(DomainErrors.QuantityAboveLimit) && total == 0.0 && count == 0
  {
    var sale := new Sale(1, 1001, 2, "Customer", 3, "Branch", 0);
    outcome := sale.AddItem(10, 20, "Product A", 21, 50.0, 1);
    total := sale.totalAmount;
    count := |sale.items|;
  }

  /** A second Cancel is refused. */
  method CancelTwice() returns (first: Outcome<DomainErrors.DomainError>, second: Outcome<DomainErrors.DomainError>)
    ensures first == Pass && second == Fail(DomainErrors.SaleAlreadyCanceled)
  {
    var sale := new Sale(1, 1001, 2, "Customer", 3, "Branch", 0);
    first := sale.Cancel(1);
    second := sale.Cancel(2);
  }
}

=== FILE: sales_query.dfy ===
/** GetAllSalesQueryHandler.Handle over the sales the repository returned:
    optional filters, sorting by a named field, the count, then one page. The
    repository read and the DTO mapping are outside the model. */
module SalesQuery {
  import opened Wrappers
  import opened Primitives
  import opened Text
  import opened Linq
  import opened Pagination
  import opened Sales

  /** GetAllSalesQuery; absent filters are None, a null SortDirection is None. */
  datatype GetAllSalesQuery = GetAllSalesQuery(page: int, pageSize: int, sortBy: string,
                                               sortDirection: Option<string>,
                                               startDate: Option<Timestamp>, endDate: Option<Timestamp>,
                                               customerId: Option<Guid>, branchId: Option<Guid>)

  /** The query's defaults: first page of ten, newest sale first. */
  const DefaultQuery: GetAllSalesQuery :=
    GetAllSalesQuery(1, 10, "SaleDate", Some("desc"), None, None, None, None)

  datatype SaleSortField = BySaleNumber | BySaleDate | ByCustomerName | ByBranchName | ByTotalAmount

  /** The switch on sortBy.ToLower(); an unknown name sorts by SaleDate. */
  function SortFieldOf(sortBy: string): (f: SaleSortField)
    ensures ToLower(sortBy) == "salenumber" <==> f == BySaleNumber
    ensures ToLower(sortBy) == "customername" <==> f == ByCustomerName
    ensures ToLower(sortBy) == "branchname" <==> f == ByBranchName
    ensures ToLower(sortBy) == "totalamount" <==> f == ByTotalAmount
  {
    match ToLower(sortBy)
    case "salenumber" => BySaleNumber
    case "saledate" => BySaleDate
    case "customername" => ByCustomerName
    case "branchname" => ByBranchName
    case "totalamount" => ByTotalAmount
    case _ => BySaleDate
  }

  function SortKeyOf(field: SaleSortField, s: SaleRecord): SortKey {
    match field
    case BySaleNumber => Number(s.saleNumber as real)
    case BySaleDate => Number(s.saleDate as real)
    case ByCustomerName => Text(s.customerName)
    case ByBranchName => Text(s.branchName)
    case ByTotalAmount => Number(s.totalAmount)
  }

  function SaleKey(field: SaleSortField): SaleRecord -> SortKey {
    (s: SaleRecord) => SortKeyOf(field, s)
  }

  /** ApplySorting. */
  function ApplySorting(sales: seq<SaleRecord>, sortBy: string, sortDirection: Option<string>)
    : (r: seq<SaleRecord>)
    ensures multiset(r) == multiset(sales)
    ensures Sorted(r, SaleKey(SortFieldOf(sortBy)), IsAscending(sortDirection))
  {
    var field := SortFieldOf(sortBy);
    OrderBy(sales, SaleKey(field), IsAscending(sortDirection))
  }

  function CustomerIs(id: Guid): SaleRecord -> bool { (s: SaleRecord) => s.customerId == id }
  function BranchIs(id: Guid): SaleRecord -> bool { (s: SaleRecord) => s.branchId == id }
  function DatedFrom(t: Timestamp): SaleRecord -> bool { (s: SaleRecord) => s.saleDate >= t }
  function DatedUntil(t: Timestamp): SaleRecord -> bool { (s: SaleRecord) => s.saleDate <= t }

  /** The four filters, each applied only when the query sets it. */
  function ApplyFilters(sales: seq<SaleRecord>, q: GetAllSalesQuery): seq<SaleRecord> {
    var byCustomer := if q.customerId.Some? then Where(sales, CustomerIs(q.customerId.value)) else sales;
    var byBranch := if q.branchId.Some? then Where(byCustomer, BranchIs(q.branchId.value)) else byCustomer;
    var fromStart := if q.startDate.Some? then Where(byBranch, DatedFrom(q.startDate.value)) else byBranch;
    if q.endDate.Some? then Where(fromStart, DatedUntil(q.endDate.value)) else fromStart
  }

  /** A sale passes every filter the query sets. */
  predicate Matches(q: GetAllSalesQuery, s: SaleRecord) {
    (q.customerId.Some? ==> s.customerId == q.customerId.value)
    && (q.branchId.Some? ==> s.branchId == q.branchId.value)
    && (q.startDate.Some? ==> s.saleDate >= q.startDate.value)
    && (q.endDate.Some? ==> s.saleDate <= q.endDate.value)
  }

  /** The chained filters keep exactly the sales that match, with their multiplicity. */
  lemma ApplyFiltersCount(sales: seq<SaleRecord>, q: GetAllSalesQuery, x: SaleRecord)
    ensures multiset(ApplyFilters(sales, q))[x] == if Matches(q, x) then multiset(sales)[x] else 0
  {
    var byCustomer := if q.customerId.Some? then Where(sales, CustomerIs(q.customerId.value)) else sales;
    var byBranch := if q.branchId.Some? then Where(byCustomer, BranchIs(q.branchId.value)) else byCustomer;
    var fromStart := if q.startDate.Some? then Where(byBranch, DatedFrom(q.startDate.value)) else byBranch;
    if q.customerId.Some? { WhereCount(sales, CustomerIs(q.customerId.value), x); }
    if q.branchId.Some? { WhereCount(byCustomer, BranchIs(q.branchId.value), x); }
    if q.startDate.Some? { WhereCount(byBranch, DatedFrom(q.startDate.value), x); }
    if q.endDate.Some? { WhereCount(fromStart, DatedUntil(q.endDate.value), x); }
  }

  /** The matching sales in the requested order: what Handle counts and pages. */
  function Selected(sales: seq<SaleRecord>, q: GetAllSalesQuery): seq<SaleRecord> {
    ApplySorting(ApplyFilters(sales, q), q.sortBy, q.sortDirection)
  }

  /** Handle: filter, sort, count before paging, take the requested page and
      build the PaginatedResult (which fails on a zero page size). */
  function Handle(sales: seq<SaleRecord>, q: GetAllSalesQuery): Result<PaginatedResult<SaleRecord>, PageError> {
    var sorted := Selected(sales, q);
    var totalItems := |sorted|;
    NewPaginatedResult(PageOf(sorted, q.page, q.pageSize), totalItems, q.page, q.pageSize)
  }

  /** The selection holds exactly the matching sales of the input, each as
      often as in the input, ordered by the selected key and direction. */
  lemma SelectedSpec(sales: seq<SaleRecord>, q: GetAllSalesQuery)
    ensures forall x :: multiset(Selected(sales, q))[x] == if Matches(q, x) then multiset(sales)[x] else 0
    ensures Sorted(Selected(sales, q), SaleKey(SortFieldOf(q.sortBy)), IsAscending(q.sortDirection))
    ensures |Selected(sales, q)| == |ApplyFilters(sales, q)|
  {
    var filtered := ApplyFilters(sales, q);
    assert multiset(Selected(sales, q)) == multiset(filtered);
    assert |Selected(sales, q)| == |multiset(Selected(sales, q))| == |multiset(filtered)| == |filtered|;
    forall x ensures multiset(Selected(sales, q))[x] == if Matches(q, x) then multiset(sales)[x] else 0 {
      ApplyFiltersCount(sales, q, x);
    }
  }

  /** Handle fails only on a zero page size; otherwise it reports the count of
      the matching sales before paging, echoes Page and PageSize, and returns
      the page of the selection. */
  lemma HandleSpec(sales: seq<SaleRecord>, q: GetAllSalesQuery)
    ensures Handle(sales, q).Failure? <==> q.pageSize == 0
    ensures Handle(sales, q).Success? ==>
      var r := Handle(sales, q).value;
      r.currentPage == q.page && r.pageSize == q.pageSize
      && r.totalItems == |ApplyFilters(sales, q)|
      && r.data == PageOf(Selected(sales, q), q.page, q.pageSize)
  {
    SelectedSpec(sales, q);
  }

  /** Every element of the selection is a matching element of the input. */
  lemma SelectedInSource(sales: seq<SaleRecord>, q: GetAllSalesQuery, x: SaleRecord)
    requires x in Selected(sales, q)
    ensures Matches(q, x) && x in sales
  {
    SelectedSpec(sales, q);
    assert multiset(Selected(sales, q))[x] > 0;
  }

  /** For Page >= 1 the page is the slice of at most PageSize selected sales
      starting at (Page - 1) * PageSize, and every sale on it is a matching
      sale of the input. */
  lemma HandlePage(sales: seq<SaleRecord>, q: GetAllSalesQuery)
    requires q.page >= 1 && q.pageSize > 0
    ensures Handle(sales, q).Success?
    ensures Handle(sales, q).value.data
      == Selected(sales, q)[Min(PageOffset(q.page, q.pageSize), |Selected(sales, q)|)..Min(PageOffset(q.page, q.pageSize) + q.pageSize, |Selected(sales, q)|)]
    ensures |Handle(sales, q).value.data| <= q.pageSize
    ensures forall x :: x in Handle(sales, q).value.data ==> Matches(q, x) && x in sales
  {
    var sorted := Selected(sales, q);
    PageOfIsSlice(sorted, q.page, q.pageSize);
    var data := PageOf(sorted, q.page, q.pageSize);
    HandleSpec(sales, q);
    forall x | x in data ensures Matches(q, x) && x in sales {
      var i :| 0 <= i < |data| && data[i] == x;
      PageInSource(sorted, q.page, q.pageSize, i);
      SelectedInSource(sales, q, x);
    }
  }

  /** The default query sorts by SaleDate... */
  lemma DefaultQuerySortField()
    ensures SortFieldOf(DefaultQuery.sortBy) == BySaleDate
  {
    var field := ToLower(DefaultQuery.sortBy);
    assert field[0] == 's' && field[4] == 'd';
    assert field == "saledate";
  }

  /** ...newest first. */
  lemma DefaultQueryDescending()
    ensures !IsAscending(DefaultQuery.sortDirection)
  {
    var direction := ToLower("desc");
    assert |direction| == 4 && forall i :: 0 <= i < 4 ==> direction[i] == "desc"[i];
    assert direction == "desc";
  }

  /** The default query returns the first ten sales of the selection. */
  lemma DefaultQueryFirstPage(sales: seq<SaleRecord>)
    ensures Handle(sales, DefaultQuery).Success?
    ensures var sorted := Selected(sales, DefaultQuery);
      Handle(sales, DefaultQuery).value.data == sorted[..Min(10, |sorted|)]
  {
    HandlePage(sales, DefaultQuery);
  }
}

=== FILE: text.dfy ===
/** The string operations the application layer relies on: lower-casing,
    string.IsNullOrEmpty / IsNullOrWhiteSpace, and string ordering. A C# string
    that may be null is an Option<string>. */
module Text {
  import opened Wrappers

  /** char.ToLower restricted to the ASCII letters; other characters are kept. */
  function LowerChar(c: char): (r: char)
    ensures 'A' <= c <= 'Z' ==> 'a' <= r <= 'z' && r as int == c as int + 32
    ensures !('A' <= c <= 'Z') ==> r == c
  {
    if 'A' <= c <= 'Z' then (c as int + 32) as char else c
  }

  /** string.ToLower: same length, each character lower-cased. */
  function ToLower(s: string): (r: string)
    ensures |r| == |s|
    ensures forall i :: 0 <= i < |s| ==> r[i] == LowerChar(s[i])
  {
    if s == [] then [] else [LowerChar(s[0])] + ToLower(s[1..])
  }

  lemma {:induction false} ToLowerIdempotent(s: string)
    ensures ToLower(ToLower(s)) == ToLower(s)
  {
    if s != [] {
      ToLowerIdempotent(s[1..]);
      assert ToLower(s)[1..] == ToLower(s[1..]);
    }
  }

  /** The UTF-16 code units of one character: two for a character outside the
      Basic Multilingual Plane (a surrogate pair), one otherwise. */
  function CodeUnits(c: char): (n: nat)
    ensures n == 1 || n == 2
    ensures n == 2 <==> c as int >= 0x10000
  {
    if c as int < 0x10000 then 1 else 2
  }

  /** string.Length, which counts UTF-16 code units, not characters. */
  function Utf16Length(s: string): (n: nat)
    ensures |s| <= n <= 2 * |s|
  {
    if s == [] then 0 else CodeUnits(s[0]) + Utf16Length(s[1..])
  }

  /** A string of Basic Multilingual Plane characters is as long in UTF-16 as
      it has characters; one made only of characters outside it is twice as
      long. */
  lemma {:induction false} Utf16LengthPlanes(s: string)
    ensures (forall i :: 0 <= i < |s| ==> s[i] as int < 0x10000) ==> Utf16Length(s) == |s|
    ensures (forall i :: 0 <= i < |s| ==> s[i] as int >= 0x10000) ==> Utf16Length(s) == 2 * |s|
  {
    if s != [] {
      Utf16LengthPlanes(s[1..]);
      assert forall i :: 0 <= i < |s[1..]| ==> s[1..][i] == s[i + 1];
    }
  }

  predicate IsNullOrEmpty(s: Option<string>) {
    s.None? || s.value == []
  }

  /** char.IsWhiteSpace: the Unicode space separators, the line and paragraph
      separators, and U+0009..U+000D, U+0085, U+00A0. */
  predicate IsWhiteSpace(c: char) {
    var n := c as int;
    n == 0x20 || 0x09 <= n <= 0x0D || n == 0x85 || n == 0xA0 || n == 0x1680
    || 0x2000 <= n <= 0x200A || n == 0x2028 || n == 0x2029 || n == 0x202F
    || n == 0x205F || n == 0x3000
  }

  predicate IsNullOrWhiteSpace(s: Option<string>) {
    s.None? || forall i :: 0 <= i < |s.value| ==> IsWhiteSpace(s.value[i])
  }

  /** Ordinal (character-code) ordering of strings: `a` sorts no later than `b`. */
  predicate TextLe(a: string, b: string) {
    a == [] || (b != [] && (a[0] < b[0] || (a[0] == b[0] && TextLe(a[1..], b[1..]))))
  }

  lemma {:induction false} TextLeTotal(a: string, b: string)
    ensures TextLe(a, b) || TextLe(b, a)
  {
    if a != [] && b != [] && a[0] == b[0] {
      TextLeTotal(a[1..], b[1..]);
    }
  }

  lemma {:induction false} TextLeTransitive(a: string, b: string, c: string)
    requires TextLe(a, b) && TextLe(b, c)
    ensures TextLe(a, c)
  {
    if a != [] && b != [] && c != [] && a[0] == b[0] && b[0] == c[0] {
      TextLeTransitive(a[1..], b[1..], c[1..]);
    }
  }

  lemma {:induction false} TextLeAntisymmetric(a: string, b: string)
    requires TextLe(a, b) && TextLe(b, a)
    ensures a == b
  {
    if a != [] && b != [] {
      TextLeAntisymmetric(a[1..], b[1..]);
    }
  }
}

=== FILE: update_sale_validator.dfy ===
/** UpdateSaleCommandValidator: the rules an UpdateSaleCommand must pass. */
module UpdateSaleValidation {
  import opened Primitives
  import opened ValidationRules
  import opened SaleItems

  datatype UpdateSaleItemCommand = UpdateSaleItemCommand(id: Guid, quantity: int)
  datatype UpdateSaleCommand = UpdateSaleCommand(id: Guid, items: seq<UpdateSaleItemCommand>)

  datatype Property = Id | Items | ItemId(index: nat) | Quantity(index: nat)


  predicate ItemAccepted(item: UpdateSaleItemCommand) {
    item.id != EmptyGuid && 0 < item.quantity <= 20
  }

  predicate Accepts(c: UpdateSaleCommand) {
    c.id != EmptyGuid
    && |c.items| > 0
    && forall i :: 0 <= i < |c.items| ==> ItemAccepted(c.items[i])
  }

  function EachItemFailures(items: seq<UpdateSaleItemCommand>, first: nat): (r: seq<ValidationFailure<Property>>)
    ensures r == [] <==> forall i :: 0 <= i < |items| ==> ItemAccepted(items[i])
  {
    if items == [] then []
    else
      Report(ItemId(first), GuidFailures(items[0].id))
      + Report(Quantity(first), QuantityFailures(items[0].quantity))
      + EachItemFailures(items[1..], first + 1)
  }

  /** Validate: every failing rule, in declaration order. The command is
      accepted exactly when there is none. */
  function Validate(c: UpdateSaleCommand): (r: seq<ValidationFailure<Property>>)
    ensures r == [] <==> Accepts(c)
    ensures c.items == [] ==> ValidationFailure(Items, NotEmpty) in r
  {
    Report(Id, GuidFailures(c.id))
    + Report(Items, if c.items == [] then [NotEmpty] else [])
    + EachItemFailures(c.items, 0)
  }

  /** An accepted command never trips UpdateQuantity's range checks. */
  lemma AcceptedQuantitiesAreInRange(c: UpdateSaleCommand)
    requires Validate(c) == []
    ensures forall i :: 0 <= i < |c.items| ==> QuantityError(c.items[i].quantity).None?
  {
  }
}

=== FILE: validation_rules.dfy ===
/** The FluentValidation rules the command validators use, as the list of
    rules that fail for one property value, in declaration order. Every rule
    of a property is evaluated (the default cascade mode). */
module ValidationRules {
  import opened Wrappers
  import opened Primitives
  import opened Text

  datatype Rule = NotEmpty | MaximumLength(max: nat) | GreaterThanZero | LessThanOrEqualTo(limit: int)

  /** NotEmpty on a string: not null, not empty and not only white space. */
  predicate NotEmptyText(s: Option<string>) {
    !IsNullOrWhiteSpace(s)
  }

  /** MaximumLength: a null string passes; otherwise at most `max` UTF-16 code
      units, as string.Length counts them. */
  predicate WithinLength(s: Option<string>, max: nat) {
    s.None? || Utf16Length(s.value) <= max
  }

  /** RuleFor(text).NotEmpty().MaximumLength(max). */
  function TextFailures(s: Option<string>, max: nat): (r: seq<Rule>)
    ensures r == [] <==> NotEmptyText(s) && WithinLength(s, max)
    ensures s.None? ==> r == [NotEmpty]
  {
    (if NotEmptyText(s) then [] else [NotEmpty])
    + (if WithinLength(s, max) then [] else [MaximumLength(max)])
  }

  /** Fifty-one characters outside the Basic Multilingual Plane are 102 UTF-16
      code units, so MaximumLength(100) fails although there are fewer than
      100 characters. */
  lemma AstralNameTooLong()
    ensures TextFailures(Some(seq(51, _ => '\U{1F600}')), 100) == [MaximumLength(100)]
  {
    var s := seq(51, _ => '\U{1F600}');
    Utf16LengthPlanes(s);
    assert !IsWhiteSpace(s[0]);
  }

  /** RuleFor(guid).NotEmpty(): Guid.Empty fails. */
  function GuidFailures(g: Guid): (r: seq<Rule>)
    ensures r == [] <==> g != EmptyGuid
  {
    if g == EmptyGuid then [NotEmpty] else []
  }

  /** RuleFor(quantity).GreaterThan(0).LessThanOrEqualTo(20). */
  function QuantityFailures(quantity: int): (r: seq<Rule>)
    ensures r == [] <==> 0 < quantity <= 20
  {
    (if quantity > 0 then [] else [GreaterThanZero])
    + (if quantity <= 20 then [] else [LessThanOrEqualTo(20)])
  }

  /** RuleFor(price).GreaterThan(0). */
  function PriceFailures(price: real): (r: seq<Rule>)
    ensures r == [] <==> price > 0.0
  {
    if price > 0.0 then [] else [GreaterThanZero]
  }

  /** A failed rule, reported on the property it was declared for. */
  datatype ValidationFailure<P> = ValidationFailure(property: P, rule: Rule)

  /** The failures of one property's rules, in order. */
  function Report<P>(property: P, rules: seq<Rule>): (r: seq<ValidationFailure<P>>)
    ensures |r| == |rules|
    ensures forall i :: 0 <= i < |r| ==> r[i] == ValidationFailure(property, rules[i])
  {
    if rules == [] then [] else [ValidationFailure(property, rules[0])] + Report(property, rules[1..])
  }
}

=== FILE: wrappers.dfy ===
/** Option, Result and Outcome: the shapes in which the model returns what the
    C# code signals with null or with a thrown exception. */
module Wrappers {

  datatype Option<+T> = None | Some(value: T)

  datatype Result<+T, +E> = Success(value: T) | Failure(error: E)

  /** The result of an operation that either completes or fails with an error. */
  datatype Outcome<+E> = Pass | Fail(error: E)
}
